=== FILE: README.md ===
# Skip selection: a Dafny model of the skip list pipeline and its display rules

This project models the logic of a skip-hire booking front end. A list of
skips comes from an upstream pricing service. A small Express server
forwards it, and the client validates and transforms it. Three screens and
components consume it:

- the skip selection page,
- the skip card,
- the permit check page, which decides whether a skip needs a council permit.

A 360-degree image viewer maps the pointer position to a zoom origin and an
image index.

The model is made of immutable datatypes and total functions:

- `Wrappers`: `Option` and `Result`.
- `Json` and `Http` (json.dfy):
  - the JSON value;
  - the outcome of an HTTP request: a network failure, or a status with a
    body that may not parse;
  - the `{ error }` body.
- `Digits`, `JsNumber` and `JsString`: the JavaScript runtime behaviour the
  code depends on.
  - JSON numbers are finite decimals `m / 10^e`, with exact real values.
  - `String(x)` is modelled in plain notation and reads back as `x`
    (`NumberToStringRoundTrip`). It is the only text without superfluous
    zeros that does so (`CanonicalTextIsRendering`).
  - `Math.round` is `floor(x + 1/2)`.
  - `toFixed(0)` puts the sign first and rounds the magnitude half up.
  - `parseInt` skips white space, reads a sign, switches to radix 16 after
    `0x`, and reads the longest digit run. `None` stands for NaN.
  - `String.prototype.replace` with a string pattern replaces only the first
    occurrence.
- `SkipApi` (client/src/lib/api.ts):
  - the raw record schema, as a hand-written validator over JSON;
  - the transform to the display record `Skip`;
  - all-or-nothing list parsing;
  - `fetchSkips`;
  - the first-match lookup by id that both pages use.
- `SkipsRoute` (server/routes.ts): the `/api/skips` handler. It accepts a bare
  array, `{skips: [...]}` or `{data: [...]}`, in that order. Each failure
  gets its own status and message.
- `PermitCheck` (client/src/pages/permit-check.tsx):
  - the selected id read from the query;
  - the permit rule: drop `" Yard"`, `parseInt`, then require a count of at
    least 10;
  - the effect that updates the flag;
  - the copy the flag selects;
  - the progress-step styles.
- `Display`: rules shared by both cards: truthiness of optional text, the
  image fallback, the savings condition and the price text.
- `SkipCard` (client/src/components/skip-card.tsx) and `SkipSelection`
  (client/src/pages/skip-selection.tsx): what each card shows, the page's view
  precedence, and selection.
- `Skip360Viewer` (client/src/components/skip-360-viewer.tsx): pointer
  handling, hover, dots and the shown image.
- `Pipeline`: end-to-end statements from the upstream response to what the
  pages show.

Points where the code's behaviour is easy to misread:

- **Malformed size.** A size that `parseInt` cannot read gives "no permit",
  not an error: the code computes `parseInt(...) >= 10` on `NaN`, which is
  `false` (`UnreadableSizeNeedsNoPermit`).
- **Raw record shape.** Only one raw record shape is validated: the one with
  `price_before_vat`, `vat`, `transport_cost`, `per_tonne_cost` and the rest
  of the fields listed in `SkipApi.SchemaKeys`.
- **Savings.** Nothing enforces `originalPrice > price`. The cards hide the
  savings block unless `originalPrice` is truthy and greater than `price`
  (`ShowsSavingsExact`). Records from the service never have an original
  price (`ServiceRecordsShowNoDiscount`).
- **Permit threshold.** A comment in the permit effect says "6 yards and
  above". The code compares with 10, and so does the model.

Some behaviours of the code that the model makes explicit:

- A `skipId` of "0" selects id `0` (`ReadSkipIdOfInteger`). The first skip
  with id `0` is displayed, because the lookup runs for it. The rule never
  runs for it, because `0` is falsy, so the flag keeps its value, which is
  false from the initial state (`ZeroIdShownWithoutRule`).
- An empty image list gives index 0, which is out of range: no image is shown
  (`EmptyImagesIndex`).
- A saving under half a pound is shown as "Save £0" (`SmallSavingReadsZero`).
- The size string a service record gets contains no `" Yard"`. So the permit
  rule reduces to "the upstream size is at least 10" (`PermitForServiceRecord`).

## Model

| member | source | states |
|---|---|---|
| `Digits.NatToStringValue` | client/src/lib/api.ts:25 | the decimal digits of a natural number read back as that number |
| `JsNumber.NumberToString` | client/src/lib/api.ts:25 | `size.toString()` in plain notation; its properties are `NumberToStringRoundTrip`, `NumberToStringRespectsValue`, `NumberToStringOfInteger`, `NumberToStringAlphabet` and `CanonicalTextIsRendering` |
| `JsNumber.NumberToStringRoundTrip` | client/src/lib/api.ts:24-27 | `String(size)`, which is the size string and part of the name, dimensions and capacity, reads back as exactly the upstream number |
| `JsNumber.NumberToStringRespectsValue` | client/src/lib/api.ts:25 | the rendering of a number depends only on its value, not on how the JSON wrote it |
| `JsNumber.NumberToStringOfInteger` | client/src/lib/api.ts:25 | a whole number renders as its integer digits with no point |
| `JsNumber.NumberToStringAlphabet` | client/src/lib/api.ts:25 | a rendered number holds only a minus sign, digits and a point |
| `JsNumber.CanonicalTextIsRendering` | client/src/lib/api.ts:25 | the rendering is the one text of its shape that reads back as the number: an optional minus sign (never on zero), integer digits without a superfluous leading zero, and a fraction without trailing zeros; so 1.50 renders as "1.5", never "01.5" or "1.50" |
| `JsNumber.NumberToStringOfText` | client/src/lib/api.ts:25 | a text of that shape is the rendering of the representation it spells |
| `Digits.NatToStringOfDigits` | client/src/lib/api.ts:25 | a digit run without a superfluous leading zero is the rendering of its own value |
| `Digits.PadZerosOfDigits` | client/src/lib/api.ts:25 | a fraction's digits are its value rendered and left-padded with zeros to its length |
| `JsNumber.DigitsValueConcat` | client/src/lib/api.ts:25 | reading two digit runs one after the other shifts the first left by the length of the second |
| `JsNumber.Round` | client/src/lib/api.ts:28 | `Math.round` gives the integer within half of the input, with halves going up |
| `JsNumber.Trunc` | client/src/pages/permit-check.tsx:35 | the integer part kept by `parseInt` lies within one of the input, on the zero side |
| `JsNumber.WholePartIsTrunc` | client/src/pages/permit-check.tsx:35 | the integer digits of a rendered number are its truncation toward zero |
| `JsNumber.ToFixed0` | client/src/components/skip-card.tsx:14 | `toFixed(0)` reads back as the magnitude rounded half up, with the sign of the input |
| `JsNumber.ToFixed0OfInteger` | client/src/components/skip-card.tsx:14 | `toFixed(0)` of a whole number is its integer digits |
| `JsString.ParseInt` | client/src/pages/permit-check.tsx:35 | `parseInt` without a radix; its properties are `ParseIntNaNExact`, `ParseIntOfDigits`, `ParseIntOfIntToString` and `ParseIntOfNumberToString` |
| `JsString.TrimStart` | client/src/pages/permit-check.tsx:35 | `parseInt` skips exactly the leading white space: the rest is a suffix starting with a non-space |
| `JsString.ParseIntOfDigits` | client/src/pages/permit-check.tsx:35 | a digit run with an optional minus, followed by anything that cannot continue it, reads as that integer |
| `JsString.ParseIntOfIntToString` | client/src/pages/permit-check.tsx:25 | `parseInt` of an integer's rendering gives the integer back |
| `JsString.ParseIntOfNumberToString` | client/src/pages/permit-check.tsx:35 | `parseInt(String(x))` is `x` truncated toward zero |
| `JsString.ParseIntNaNExact` | client/src/pages/permit-check.tsx:25 | `parseInt` gives NaN exactly when, after leading white space and one optional sign, there is no decimal digit, or a "0x"/"0X" prefix with no hexadecimal digit after it |
| `JsString.ParseIntNaN` | client/src/pages/permit-check.tsx:25 | special case of `ParseIntNaNExact`: a string starting with anything but white space, a sign or a digit reads as NaN |
| `JsString.IndexOf` | client/src/pages/permit-check.tsx:35 | the search returns the first occurrence at or after the start, or none when there is none |
| `JsString.ReplaceFirst` | client/src/pages/permit-check.tsx:35 | `replace` with a string pattern; its properties are `ReplaceFirstUnchanged`, `ReplaceFirstAbsent` and `ReplaceFirstAt` |
| `JsString.ReplaceFirstUnchanged` | client/src/pages/permit-check.tsx:35 | `replace` leaves a string unchanged whenever the pattern occurs nowhere in it |
| `JsString.ReplaceFirstAbsent` | client/src/pages/permit-check.tsx:35 | corollary of `ReplaceFirstUnchanged`: a string without the pattern's first character is left unchanged |
| `JsString.ReplaceFirstAt` | client/src/pages/permit-check.tsx:35 | `replace` removes exactly the first occurrence and keeps both sides |
| `SkipApi.ValidateRaw` | client/src/lib/api.ts:4-19 | the raw record schema; its properties are `ValidateRawExact`, `ValidateRawSound`, `ValidateRawComplete`, `ValidateRawOfEncoding`, `ValidatedFields` and `ValidateRawRejects` |
| `SkipApi.ValidateRawExact` | client/src/lib/api.ts:4-19 | a JSON value validates to a record if and only if it is an object holding every schema field, with that record's value and type |
| `SkipApi.ValidateRawSound` | client/src/lib/api.ts:4-19 | a validated record is read field by field from the object |
| `SkipApi.ValidateRawComplete` | client/src/lib/api.ts:4-19 | every object carrying a record's fields validates to that record |
| `SkipApi.ValidateRawOfEncoding` | client/src/lib/api.ts:4-19 | a record's JSON encoding validates back to it, also with extra unknown fields added |
| `SkipApi.NullableNumberFieldExact` | client/src/lib/api.ts:8-9 | the two cost fields accept a number or `null`, and nothing else |
| `SkipApi.ValidatedFields` | client/src/lib/api.ts:5-18 | a validated object has every schema field, with `null` only in the two nullable ones |
| `SkipApi.ValidateRawRejects` | client/src/lib/api.ts:5-18 | a missing field, `null` in a non-nullable field, or a non-object is rejected |
| `SkipApi.Transform` | client/src/lib/api.ts:22-43 | the transform to the display record; its properties are `TransformKeepsSize`, `PriceWithVatNearest`, `SuitableForBuckets`, `TransformFlags`, `FeaturesShape` and `TransformIgnores` |
| `SkipApi.TransformKeepsSize` | client/src/lib/api.ts:23-27 | the id passes through; the size string is `String(size)`, which reads back as the size; the name and capacity are built on that string |
| `SkipApi.TransformSizeOfInteger` | client/src/lib/api.ts:24-26 | a whole-number size N gives the size string of N's integer digits and the name "N Yard Skip" |
| `SkipApi.PriceWithVatNearest` | client/src/lib/api.ts:28 | the price is the whole number nearest the VAT-inclusive price; a whole gross price is kept; it is non-negative for a non-negative net price and VAT of at least -100% |
| `SkipApi.SuitableForBuckets` | client/src/lib/api.ts:31-35 | always three tags: the garden set if and only if size ≤ 4, the home set if and only if 4 < size ≤ 8, the large set if and only if size > 8 |
| `SkipApi.TransformFlags` | client/src/lib/api.ts:29-36 | popular if and only if the size is 6; no original price and no image ever |
| `SkipApi.FeaturesShape` | client/src/lib/api.ts:37-42 | four feature lines in fixed order; the first carries the hire period, which reads back; the road and waste lines follow their flags in both directions |
| `SkipApi.TransformIgnores` | client/src/lib/api.ts:22-43 | costs, postcode, area, `forbidden` and timestamps do not affect the display record |
| `SkipApi.ParseAll` | client/src/lib/api.ts:45 | a list parses if and only if every element validates; the result has the same length and order, each element transformed |
| `SkipApi.ParseAllAppend` | client/src/lib/api.ts:45 | parsing a concatenation succeeds if and only if both parts do, and gives the concatenated results |
| `SkipApi.ForbiddenKept` | client/src/lib/api.ts:14-45 | a record marked `forbidden` is still parsed and shown |
| `SkipApi.FetchSkips` | client/src/lib/api.ts:49-60 | `fetchSkips`; its properties are `FetchSkipsOutcome` and, end to end, `Pipeline.ClientSucceedsExactly` and `Pipeline.FailuresReachClient` |
| `SkipApi.FetchSkipsOutcome` | client/src/lib/api.ts:49-60 | a non-ok status fails with its status message whatever the body; otherwise success holds if and only if the body is JSON matching the list schema |
| `SkipApi.FindById` | client/src/pages/permit-check.tsx:42 | a found skip is in the list and has the id |
| `SkipApi.FindByIdFirst` | client/src/pages/permit-check.tsx:42 | nothing is found if and only if no skip has the id; otherwise the first skip with the id is found |
| `SkipsRoute.Unwrap` | server/routes.ts:20-29 | the envelope chain; its property is `UnwrapIsFirstArray` against the reference `FirstPresent`, with `SkipsBeforeData` and `EnvelopeExamples` |
| `SkipsRoute.Handle` | server/routes.ts:8-35 | the route handler; its properties are `HandleOutcomes`, `BareArrayForwarded`, `StatusMessageDiffers` and `ReplyWireForm` |
| `SkipsRoute.UnwrapIsFirstArray` | server/routes.ts:20-29 | apart from `null`, which throws, the handler takes the first of body, `skips`, `data` that is an array |
| `SkipsRoute.BareArrayForwarded` | server/routes.ts:21-31 | a bare array body is forwarded unchanged with status 200 |
| `SkipsRoute.SkipsBeforeData` | server/routes.ts:23-28 | `skips` wins over `data`; `data` is used only when `skips` is missing or not an array; with neither, there is no envelope |
| `SkipsRoute.EnvelopeExamples` | server/routes.ts:23-28 | `{skips: {}, data: [...]}` yields `data`; `{}` gives 500 "Invalid API response structure" |
| `SkipsRoute.HandleOutcomes` | server/routes.ts:8-35 | a non-ok upstream answer keeps its status with a message naming it; network, parse and `null` failures give 500 "Failed to fetch skip data"; a missing envelope gives its own 500; all else forwards the records |
| `SkipsRoute.StatusMessageDiffers` | server/routes.ts:12-14 | the forwarded-status message never equals either fixed message |
| `SkipsRoute.ReplyWireForm` | server/routes.ts:12-34 | the status and body sent determine the reply; error bodies hold the message under `error` |
| `PermitCheck.ReadSkipId` | client/src/pages/permit-check.tsx:22-26 | the selection stays `null` if and only if the `skipId` parameter is absent or empty |
| `PermitCheck.ReadSkipIdOfInteger` | client/src/pages/permit-check.tsx:22-26 | a `skipId` that is the rendering of an integer selects that integer, and it is truthy if and only if the integer is not 0 |
| `PermitCheck.SelectedSkip` | client/src/pages/permit-check.tsx:42 | the displayed skip is from the loaded list and has the selected numeric id |
| `PermitCheck.InitialState` | client/src/pages/permit-check.tsx:12-13 | the permit flag starts false |
| `PermitCheck.RequiresPermit` | client/src/pages/permit-check.tsx:35-36 | the permit rule; its properties are `RequiresPermitOfYards`, `RequiresPermitThreshold`, `UnreadableSizeNeedsNoPermit` and `RequiresPermitOfRenderedSize` |
| `PermitCheck.ReplaceYardAfterDigits` | client/src/pages/permit-check.tsx:35 | removing `" Yard"` after a digit run keeps the digits and what follows |
| `PermitCheck.RequiresPermitOfYards` | client/src/pages/permit-check.tsx:35-36 | for "N Yard..." the permit is required if and only if N ≥ 10 |
| `PermitCheck.RequiresPermitThreshold` | client/src/pages/permit-check.tsx:36 | 9 yards need no permit; 10 yards do |
| `PermitCheck.UnreadableSizeNeedsNoPermit` | client/src/pages/permit-check.tsx:35-36 | a size that reads as NaN once its first " Yard" is removed (as `ParseIntNaNExact` characterises it, e.g. "-x", "+", " abc", " Yardx") gives "no permit" rather than an error |
| `PermitCheck.LetterFirstSizeNeedsNoPermit` | client/src/pages/permit-check.tsx:35-36 | a size starting with anything but white space, a sign or a digit keeps that first character when " Yard" is removed, so it needs no permit |
| `PermitCheck.RequiresPermitOfRenderedSize` | client/src/pages/permit-check.tsx:35-36 | for a plain number rendering, the permit is required if and only if the number is at least 10 |
| `PermitCheck.PermitEffect` | client/src/pages/permit-check.tsx:29-40 | the permit effect; its properties are `PermitEffectUnchanged`, `PermitEffectApplies`, `SettleIdempotent`, `SettledFlagMeansPermit` and `ZeroIdShownWithoutRule` |
| `PermitCheck.PermitEffectUnchanged` | client/src/pages/permit-check.tsx:29-40 | a falsy id, an unloaded list or an unknown id leaves the flag as it was |
| `PermitCheck.PermitEffectApplies` | client/src/pages/permit-check.tsx:30-42 | otherwise the flag is the rule applied to the first skip with the id, the same skip the page displays |
| `PermitCheck.SettleIdempotent` | client/src/pages/permit-check.tsx:29-40 | running the effect again changes nothing |
| `PermitCheck.SettledFlagMeansPermit` | client/src/pages/permit-check.tsx:13-42 | from the initial state, the flag is raised only for a displayed skip whose size needs a permit |
| `PermitCheck.ZeroIdShownWithoutRule` | client/src/pages/permit-check.tsx:30-42 | the first skip with id 0, wherever it is in the list, is displayed, but the rule never runs for it and the flag keeps its value |
| `PermitCheck.NonNumericIdSelectsNothing` | client/src/pages/permit-check.tsx:24-31 | a `skipId` that reads as NaN (every case `ParseIntNaNExact` names, e.g. "abc", "-x", " abc", "0x") selects nothing and leaves the flag unchanged |
| `PermitCheck.Copy` | client/src/pages/permit-check.tsx:99-199 | the copy for a flag value; its properties are `PrivateOptionFixed` and `CopyFollowsFlag` |
| `PermitCheck.PrivateOptionFixed` | client/src/pages/permit-check.tsx:155-169 | the private-property copy is the same for both flag values and says no permit is required |
| `PermitCheck.CopyFollowsFlag` | client/src/pages/permit-check.tsx:99-199 | the status title, road icon and road note are those of the flag, in both directions, and the two copies differ |
| `PermitCheck.CircleClass` | client/src/pages/permit-check.tsx:231-235 | the step circle classes; its property is `StepIndicatorPrecedence` |
| `PermitCheck.StepIndicatorPrecedence` | client/src/pages/permit-check.tsx:231-239 | completed takes precedence over active for the circle; the label is white if and only if active |
| `PermitCheck.PermitStepsShape` | client/src/pages/permit-check.tsx:61-66 | six steps: the first three completed, "Permit Check" the only active one, the only white label |
| `Display.ShownText` | client/src/components/skip-card.tsx:61-72 | an optional text line is shown if and only if it is present and non-empty, and unchanged |
| `Display.ImageSourceFallback` | client/src/components/skip-card.tsx:34 | the image is the record's URL exactly when that is non-empty, otherwise the default; never empty with a non-empty default |
| `Display.ShowsSavingsExact` | client/src/components/skip-card.tsx:94 | for a non-negative price the savings block shows if and only if an original price exceeds the price; the amount is then positive |
| `Display.Savings` | client/src/components/skip-card.tsx:94-100 | the saving shown is positive and adds to the price to give the original price |
| `Display.SavingsLines` | client/src/components/skip-card.tsx:94-103 | the "Was" and "Save" lines exist if and only if the discount condition holds |
| `Display.FormatPrice` | client/src/components/skip-card.tsx:14 | `£${price.toFixed(0)}`; its properties are `FormatPriceReadsBack`, `FormatWholePrice` and `SmallSavingReadsZero` |
| `Display.FormatPriceReadsBack` | client/src/components/skip-card.tsx:14 | a price text is "£" followed by text reading back as the price rounded to whole pounds |
| `Display.FormatWholePrice` | client/src/components/skip-card.tsx:14 | a whole price is written as "£" and its integer digits |
| `Display.SmallSavingReadsZero` | client/src/components/skip-card.tsx:94-100 | a saving of a quarter pound is shown, as "£0" |
| `SkipCard.ListDefaults` | client/src/components/skip-card.tsx:16-26 | the default features and tags apply only to absent lists; a present empty list shows nothing; present lists show in order |
| `SkipCard.DefaultTagsAreSmallest` | client/src/components/skip-card.tsx:22-26 | the default tags are the ≤4-yard set, and differ from the set of any larger size |
| `SkipCard.Card` | client/src/components/skip-card.tsx:11-128 | what the card shows; its properties are `ListDefaults`, `DefaultTagsAreSmallest` and `CardDerivations` |
| `SkipCard.CardDerivations` | client/src/components/skip-card.tsx:34-103 | the badge shows if and only if `isPopular`; the savings block shows if and only if the discount condition holds, with the original price and a positive saving; the image and dimensions fall back as the source does |
| `SkipSelection.View` | client/src/pages/skip-selection.tsx:21-132 | the list view has one card per skip, in order, and none while data is absent |
| `SkipSelection.ViewPrecedence` | client/src/pages/skip-selection.tsx:21-60 | loading shows if and only if loading; an error if and only if not loading and failed, with its message; the list otherwise |
| `SkipSelection.HandleSelectSkip` | client/src/pages/skip-selection.tsx:15-19 | a selected skip is in the list and has the id |
| `SkipSelection.SelectFindsCardSkip` | client/src/pages/skip-selection.tsx:15-19 | with distinct ids, selecting a card finds that card's skip |
| `SkipSelection.VisibleTags` | client/src/pages/skip-selection.tsx:207-210 | the option card's tag section; its property is `VisibleTagsPrefix` |
| `SkipSelection.VisibleTagsPrefix` | client/src/pages/skip-selection.tsx:207-210 | the tag section is hidden if and only if the list is absent or empty; otherwise it shows the first min(3, n) tags in order |
| `SkipSelection.OptionCardOf` | client/src/pages/skip-selection.tsx:158-254 | what the option card shows; its properties are `OptionCardIgnoresFeatures` and `OptionCardDerivations` |
| `SkipSelection.OptionCardIgnoresFeatures` | client/src/pages/skip-selection.tsx:237-241 | the feature lines are the three fixed ones, whatever the skip's own features or hire period |
| `SkipSelection.OptionCardDerivations` | client/src/pages/skip-selection.tsx:159-233 | the savings block follows the discount condition with a positive amount; the image falls back; the badge shows if and only if popular |
| `Skip360Viewer.ClampPercent` | client/src/components/skip-360-viewer.tsx:19 | the zoom origin lies in [0, 100] and is unchanged inside that range |
| `Skip360Viewer.MouseMove` | client/src/components/skip-360-viewer.tsx:14-25 | after a move both zoom coordinates lie in [0, 100] and the zoom state is kept |
| `Skip360Viewer.ImageIndex` | client/src/components/skip-360-viewer.tsx:22-24 | the image under the pointer; its properties are `IndexInRange`, `IndexInsideBox`, `IndexAtEdges`, `IndexMonotone` and `EmptyImagesIndex` |
| `Skip360Viewer.IndexInRange` | client/src/components/skip-360-viewer.tsx:22-24 | with images, the index is always one of them |
| `Skip360Viewer.IndexInsideBox` | client/src/components/skip-360-viewer.tsx:22-24 | inside the box the clamp does nothing: the index is floor(nx × count) |
| `Skip360Viewer.IndexAtEdges` | client/src/components/skip-360-viewer.tsx:24 | at or past the right edge the last image is shown; left of the box the first |
| `Skip360Viewer.IndexMonotone` | client/src/components/skip-360-viewer.tsx:16-24 | moving right never selects an earlier image |
| `Skip360Viewer.EmptyImagesIndex` | client/src/components/skip-360-viewer.tsx:24-36 | with no images the index is 0, which is out of range, and no image is shown |
| `Skip360Viewer.MouseMoveShowsImage` | client/src/components/skip-360-viewer.tsx:14-36 | after a move over images one is shown; inside the box both coordinates of the zoom origin are the pointer position in percent |
| `Skip360Viewer.InitialAndHover` | client/src/components/skip-360-viewer.tsx:10-41 | the initial state is image 0, unzoomed, with origin (50, 50); entering and leaving only toggle the 1.5 scale |
| `Skip360Viewer.ClickDot` | client/src/components/skip-360-viewer.tsx:48-51 | a dot click selects an index in range |
| `Skip360Viewer.ClickDotSelects` | client/src/components/skip-360-viewer.tsx:48-57 | the clicked dot becomes the only current dot and its image is shown |
| `Pipeline.EnvelopesAgree` | server/routes.ts:21-31 | the three body shapes give the client the same result |
| `Pipeline.ClientSucceedsExactly` | client/src/lib/api.ts:49-60 | the client gets a list if and only if the upstream answered ok with a known shape of all-valid records; the list is those records transformed |
| `Pipeline.FailuresReachClient` | client/src/lib/api.ts:52-54 | every proxy error reaches the client as a status failure with the proxy's status; a non-ok upstream status is passed through; `{}` gives 500 |
| `Pipeline.PermitForServiceRecord` | client/src/pages/permit-check.tsx:35-36 | a record from the service needs a permit if and only if its upstream size is at least 10 |
| `Pipeline.PermitFlagForSelection` | client/src/pages/permit-check.tsx:29-40 | with a loaded list and a truthy id, the flag is set if and only if the first record with that id is at least 10 yards |
| `Pipeline.ServiceRecordsShowNoDiscount` | client/src/lib/api.ts:29-30 | records from the service never show savings and always show the default image, on both cards |
| `Pipeline.ServiceRecordLists` | client/src/pages/skip-selection.tsx:207-210 | a service record shows its three size tags on the option card and its four feature lines on the card |

## Left out

- HTTP itself is not modelled. That covers `fetch`, Express's `req`/`res`, the upstream URL with its fixed postcode and area, and the status text. These become the parameters `Http.Outcome` and `statusText`.
- React is not modelled: `useQuery`, `useState` and `useEffect` scheduling, `refetch`, and navigation (`setLocation`, `handleContinue`, `handleBack`). The effects are modelled as functions from the state they read to the state they write.
- `console.log` and `console.error` are left out because they have no observable result.
- The zod library is replaced by a hand-written validator. Its error messages and issue paths are left out, so a schema failure is the single `SchemaMismatch`.
- Floating point is left out. Numbers are exact finite decimals, so the `price_before_vat * (1 + vat / 100)` product and the pointer divisions are exact. Out-of-range JSON literals such as `1e400`, which `JSON.parse` reads as `Infinity`, overflow of finite products (`1e308 * 2`), and the `NaN` that `Infinity * 0` gives (for instance with `vat` = -100) are left out with the rest of floating point.
- `String(x)` exponent notation, used at ≥ 1e21 or below 1e-6, is left out. Only plain notation is modelled, which covers skip sizes and hire periods.
- `x.toFixed(0)` falls back to exponent notation at ≥ 1e21 (client/src/components/skip-card.tsx:14, client/src/pages/skip-selection.tsx:223). That fallback is left out; `ToFixed0` renders every value in plain notation.
- JSON objects are maps, so a duplicate key keeps its last value, as `JSON.parse` does. Key order is not modelled because nothing depends on it.
- Strings are sequences of characters. UTF-16 surrogate pairs are not distinguished.
- Skip360Viewer.MouseMove: requires a box of positive width and height. With a zero-size box the source divides by zero and produces Infinity or NaN, which exact reals cannot represent.
- Unreachable JavaScript values are not modelled: a truthy but non-array `features` or `suitableFor`, a non-string `imageUrl`, and a NaN `originalPrice`. `Skip`'s types exclude them.
- The permit page's summary of the selected skip (name, dimensions and `£{price}`) is static markup. Only whether it appears is modelled, by `SelectedSkip`.
- CSS, animation, the Three.js background, icons and the static components are not part of this model. The static components are help-section.tsx, trust-indicators.tsx, loading-skeleton.tsx and error-state.tsx.
- shared/schema.ts is not part of this model. Its tables are unused, and its display shape is the `Skip` datatype.

=== FILE: digits.dfy ===
/** Digit characters, decimal rendering of integers and the value of a run of
    digits in a radix: the common ground of JavaScript's number-to-string
    conversion and of `parseInt`. */
module Digits {

  /** 10 to the power `k`. */
  function Pow10(k: nat): (p: nat)
    ensures p >= 1
  {
    if k == 0 then 1 else 10 * Pow10(k - 1)
  }

  /** The value of an ASCII hexadecimal digit, or -1 for any other character. */
  function DigitValue(c: char): int {
    if '0' <= c <= '9' then c as int - '0' as int
    else if 'a' <= c <= 'f' then c as int - 'a' as int + 10
    else if 'A' <= c <= 'F' then c as int - 'A' as int + 10
    else -1
  }

  /** The two radixes `parseInt` reads without an explicit radix argument. */
  type Radix = r: nat | r == 10 || r == 16 witness 10

  predicate IsDigit(c: char, radix: Radix) {
    0 <= DigitValue(c) < radix
  }

  predicate AllDigits(s: string, radix: Radix) {
    forall i :: 0 <= i < |s| ==> IsDigit(s[i], radix)
  }

  function DigitChar(d: nat): (c: char)
    requires d < 10
    ensures IsDigit(c, 10) && DigitValue(c) == d
  {
    ('0' as int + d) as char
  }

  /** Decimal rendering of a natural number: most significant digit first,
      no leading zero except for 0 itself. */
  function NatToString(n: nat): (s: string)
    ensures |s| >= 1
    ensures AllDigits(s, 10)
    ensures s[0] == '0' <==> n == 0
    decreases n
  {
    if n < 10 then [DigitChar(n)] else NatToString(n / 10) + [DigitChar(n % 10)]
  }

  /** Decimal rendering of an integer, with a leading minus sign when negative
      (`String(n)` for an integral JavaScript number). */
  function IntToString(n: int): string {
    if n < 0 then "-" + NatToString(-n) else NatToString(n)
  }

  /** The value of a run of digits in `radix`, most significant first. */
  function DigitsValue(s: string, radix: Radix): nat
    requires AllDigits(s, radix)
  {
    if |s| == 0 then 0
    else
      var high := DigitsValue(s[..|s| - 1], radix);
      (if radix == 16 then 16 * high else 10 * high) + DigitValue(s[|s| - 1])
  }

  /** The length of the longest prefix of `s` made of digits in `radix`. */
  function LeadingDigitCount(s: string, radix: Radix): (k: nat)
    ensures k <= |s|
    ensures AllDigits(s[..k], radix)
    ensures k < |s| ==> !IsDigit(s[k], radix)
  {
    if |s| == 0 || !IsDigit(s[0], radix) then 0
    else
      var k := 1 + LeadingDigitCount(s[1..], radix);
      assert s[..k] == [s[0]] + s[1..][..k - 1];
      k
  }

  function Zeros(k: nat): (s: string)
    ensures |s| == k && AllDigits(s, 10)
  {
    if k == 0 then [] else Zeros(k - 1) + ['0']
  }

  /** `s` left-padded with '0' to at least `width` characters. */
  function PadZeros(s: string, width: nat): string {
    if |s| < width then Zeros(width - |s|) + s else s
  }

  /** Reading back the decimal rendering of `n` gives `n`. */
  lemma {:induction false} NatToStringValue(n: nat)
    ensures DigitsValue(NatToString(n), 10) == n
    decreases n
  {
    var s := NatToString(n);
    if n < 10 {
      assert s[..0] == [];
    } else {
      NatToStringValue(n / 10);
      assert s[..|s| - 1] == NatToString(n / 10);
    }
  }

  /** The decimal rendering of a number below 10^k has at most k digits. */
  lemma {:induction false} NatToStringLength(n: nat, k: nat)
    requires n < Pow10(k)
    requires k >= 1
    ensures |NatToString(n)| <= k
    decreases n
  {
    if n >= 10 {
      assert Pow10(1) == 10;
      assert k >= 2;
      assert n / 10 < Pow10(k - 1);
      NatToStringLength(n / 10, k - 1);
    }
  }

  lemma {:induction false} ZerosValue(k: nat)
    ensures DigitsValue(Zeros(k), 10) == 0
  {
    if k > 0 {
      ZerosValue(k - 1);
      assert Zeros(k)[..k - 1] == Zeros(k - 1);
    }
  }

  /** Leading zeros do not change the value of a run of digits. */
  lemma {:induction false} LeadingZerosValue(k: nat, s: string)
    requires AllDigits(s, 10)
    ensures AllDigits(Zeros(k) + s, 10)
    ensures DigitsValue(Zeros(k) + s, 10) == DigitsValue(s, 10)
    decreases |s|
  {
    var t := Zeros(k) + s;
    assert AllDigits(t, 10);
    if |s| == 0 {
      assert t == Zeros(k);
      ZerosValue(k);
    } else {
      assert t[..|t| - 1] == Zeros(k) + s[..|s| - 1];
      LeadingZerosValue(k, s[..|s| - 1]);
    }
  }

  lemma {:induction false} PadZerosValue(s: string, width: nat)
    requires AllDigits(s, 10)
    ensures |PadZeros(s, width)| == if |s| < width then width else |s|
    ensures AllDigits(PadZeros(s, width), 10)
    ensures DigitsValue(PadZeros(s, width), 10) == DigitsValue(s, 10)
  {
    if |s| < width {
      LeadingZerosValue(width - |s|, s);
    }
  }

  /** A run of digits followed by a non-digit (or nothing) is exactly the
      leading digit run. */
  lemma {:induction false} LeadingDigitCountOfConcat(a: string, b: string, radix: Radix)
    requires AllDigits(a, radix)
    requires |b| == 0 || !IsDigit(b[0], radix)
    ensures LeadingDigitCount(a + b, radix) == |a|
    decreases |a|
  {
    if |a| > 0 {
      assert (a + b)[1..] == a[1..] + b;
      LeadingDigitCountOfConcat(a[1..], b, radix);
    }
  }


  /** A run of `k` digits is worth less than 10^k. */
  lemma {:induction false} DigitsValueBound(s: string)
    requires AllDigits(s, 10)
    ensures DigitsValue(s, 10) < Pow10(|s|)
    decreases |s|
  {
    if |s| > 0 {
      DigitsValueBound(s[..|s| - 1]);
    }
  }

  lemma DigitCharOfValue(c: char)
    requires IsDigit(c, 10)
    ensures DigitChar(DigitValue(c)) == c
  {
  }

  /** A run of digits with no superfluous leading zero is the decimal
      rendering of its own value. */
  lemma {:induction false} NatToStringOfDigits(w: string)
    requires |w| >= 1 && AllDigits(w, 10)
    requires |w| == 1 || w[0] != '0'
    ensures NatToString(DigitsValue(w, 10)) == w
    decreases |w|
  {
    var c := w[|w| - 1];
    DigitCharOfValue(c);
    if |w| > 1 {
      var p := w[..|w| - 1];
      NatToStringOfDigits(p);
      assert DigitsValue(p, 10) != 0 by {
        assert NatToString(DigitsValue(p, 10))[0] == w[0];
      }
      assert w == p + [c];
    }
  }

  lemma {:induction false} ZerosCons(k: nat)
    requires k > 0
    ensures Zeros(k) == ['0'] + Zeros(k - 1)
  {
    if k > 1 {
      ZerosCons(k - 1);
    }
  }

  /** A non-empty run of digits is its own value rendered and padded back to
      its length: leading zeros are exactly what the padding restores. */
  lemma {:induction false} PadZerosOfDigits(g: string)
    requires |g| >= 1 && AllDigits(g, 10)
    ensures PadZeros(NatToString(DigitsValue(g, 10)), |g|) == g
    decreases |g|
  {
    if |g| == 1 || g[0] != '0' {
      NatToStringOfDigits(g);
    } else {
      var t := g[1..];
      var x := NatToString(DigitsValue(t, 10));
      assert g == Zeros(1) + t;
      LeadingZerosValue(1, t);
      PadZerosOfDigits(t);
      assert |x| <= |t|;
      ZerosCons(|g| - |x|);
    }
  }

  /** A run of digits ending in a non-zero digit has a value that is not a
      multiple of ten. */
  lemma {:induction false} LastDigitNonZero(g: string)
    requires |g| >= 1 && AllDigits(g, 10)
    requires g[|g| - 1] != '0'
    ensures DigitsValue(g, 10) % 10 != 0
  {
    var d := DigitValue(g[|g| - 1]);
    assert 1 <= d < 10;
  }

}

=== FILE: display.dfy ===
/** Display rules shared by the skip card (client/src/components/skip-card.tsx)
    and the selection page's option card (client/src/pages/skip-selection.tsx):
    JavaScript truthiness of optional values, the image fallback, the savings
    block and the price text. */
module Display {
  import opened Wrappers
  import opened Digits
  import opened JsNumber

  /** `value && ...` for an optional string: absent and empty are falsy. */
  function ShownText(value: Option<string>): (r: Option<string>)
    ensures r.Some? <==> value.Some? && value.value != ""
    ensures r.Some? ==> r == value
  {
    if value.Some? && value.value != "" then value else None
  }

  /** `imageUrl || fallback`. */
  function ImageSource(imageUrl: Option<string>, fallback: string): string {
    match ShownText(imageUrl)
    case Some(url) => url
    case None => fallback
  }

  /** `originalPrice && originalPrice > price`: an absent or zero original
      price hides the block. */
  predicate ShowsSavings(price: real, originalPrice: Option<real>) {
    originalPrice.Some? && originalPrice.value != 0.0 && originalPrice.value > price
  }

  function Savings(price: real, originalPrice: Option<real>): (amount: real)
    requires ShowsSavings(price, originalPrice)
    ensures amount > 0.0
    ensures price + amount == originalPrice.value
  {
    originalPrice.value - price
  }

  /** The "Was" and "Save" lines of the savings block. */
  datatype SavingsView = SavingsView(was: string, save: string)

  function SavingsLines(price: real, originalPrice: Option<real>): (r: Option<SavingsView>)
    ensures r.Some? <==> ShowsSavings(price, originalPrice)
  {
    if ShowsSavings(price, originalPrice)
    then Some(SavingsView(FormatPrice(originalPrice.value), FormatPrice(Savings(price, originalPrice))))
    else None
  }

  /** A price in whole pounds: `£` and `toFixed(0)`. */
  function FormatPrice(price: real): string {
    "£" + ToFixed0(price)
  }

  /** The image is the record's own URL exactly when that is non-empty; a
      non-empty fallback means the image source is never empty. */
  lemma ImageSourceFallback(imageUrl: Option<string>, fallback: string)
    ensures imageUrl.Some? && imageUrl.value != "" ==> ImageSource(imageUrl, fallback) == imageUrl.value
    ensures imageUrl.None? || imageUrl.value == "" ==> ImageSource(imageUrl, fallback) == fallback
    ensures fallback != "" ==> ImageSource(imageUrl, fallback) != ""
  {
  }

  /** For a non-negative price the zero test is redundant: the block shows
      exactly when the original price exceeds the price. A negative price
      with an original price of 0 is the one case the zero test hides. */
  lemma ShowsSavingsExact(price: real, originalPrice: Option<real>)
    ensures price >= 0.0 ==> (ShowsSavings(price, originalPrice) <==> originalPrice.Some? && originalPrice.value > price)
    ensures price < 0.0 ==> !ShowsSavings(price, Some(0.0))
    ensures ShowsSavings(price, originalPrice) ==> Savings(price, originalPrice) > 0.0
  {
  }

  /** The price text reads back as the price rounded to whole pounds (halves
      away from zero); a whole price is written in full. */
  lemma FormatPriceReadsBack(price: real)
    ensures |FormatPrice(price)| >= 1 && FormatPrice(price)[0] == '£'
    ensures price >= 0.0 ==> ParseDecimal(FormatPrice(price)[1..]) == Some(Round(price) as real)
    ensures price < 0.0 ==> ParseDecimal(FormatPrice(price)[1..]) == Some(-(Round(-price) as real))
  {
    assert FormatPrice(price)[1..] == ToFixed0(price);
  }

  lemma {:induction false} FormatWholePrice(n: int)
    ensures FormatPrice(n as real) == "£" + IntToString(n)
  {
    ToFixed0OfInteger(n);
  }

  /** A saving below half a pound is still shown, and reads "£0". */
  lemma SmallSavingReadsZero()
    ensures ShowsSavings(10.0, Some(10.25))
    ensures FormatPrice(Savings(10.0, Some(10.25))) == "£0"
  {
    assert Savings(10.0, Some(10.25)) == 0.25;
    assert Round(0.25) == 0;
    assert NatToString(0) == "0";
  }
}

=== FILE: js_number.dfy ===
/** JavaScript numbers as they arrive in a JSON body, and the number
    operations the pipeline and the cards use: `String(x)` (template-literal
    interpolation and `toString()`), `Math.round` and `toFixed(0)`.

    A JSON number literal denotes a finite decimal, so a number is modelled
    exactly as `mantissa / 10^exponent`. Two representations of one value
    (`1.50` and `1.5`) must behave alike: every operation below depends only on
    `Value`. */
module JsNumber {
  import opened Wrappers
  import opened Digits

  datatype Decimal = Decimal(mantissa: int, exponent: nat)

  /** `n / 10^e`, computed one decimal place at a time. */
  function Scaled(n: int, e: nat): real {
    if e == 0 then n as real else Scaled(n, e - 1) / 10.0
  }

  function Value(d: Decimal): real {
    Scaled(d.mantissa, d.exponent)
  }

  function Abs(n: int): nat {
    if n < 0 then -n else n
  }

  // ---------------------------------------------------------------------
  // Arithmetic of Scaled

  lemma {:induction false} ScaledNeg(n: int, e: nat)
    ensures Scaled(-n, e) == -Scaled(n, e)
  {
    if e > 0 {
      ScaledNeg(n, e - 1);
    }
  }

  lemma {:induction false} ScaledAdd(a: int, b: int, e: nat)
    ensures Scaled(a + b, e) == Scaled(a, e) + Scaled(b, e)
  {
    if e > 0 {
      ScaledAdd(a, b, e - 1);
    }
  }

  lemma {:induction false} ScaledStrictlyMonotone(a: int, b: int, e: nat)
    requires a < b
    ensures Scaled(a, e) < Scaled(b, e)
  {
    if e > 0 {
      ScaledStrictlyMonotone(a, b, e - 1);
    }
  }

  lemma {:induction false} ScaledInjective(a: int, b: int, e: nat)
    requires Scaled(a, e) == Scaled(b, e)
    ensures a == b
  {
    if a < b {
      ScaledStrictlyMonotone(a, b, e);
    } else if b < a {
      ScaledStrictlyMonotone(b, a, e);
    }
  }

  /** Removing a trailing zero digit and one place of fraction keeps the value. */
  lemma {:induction false} ScaleDown(q: int, e: nat)
    requires e > 0
    ensures Scaled(10 * q, e) == Scaled(q, e - 1)
  {
    if e > 1 {
      ScaleDown(q, e - 1);
    }
  }

  lemma TimesPow10Step(n: int, k: nat)
    requires k > 0
    ensures n * Pow10(k) == 10 * (n * Pow10(k - 1))
  {
  }

  /** Appending `k` zero digits and `k` places of fraction keeps the value. */
  lemma {:induction false} ScaledShift(n: int, e: nat, k: nat)
    ensures Scaled(n * Pow10(k), e + k) == Scaled(n, e)
  {
    if k > 0 {
      TimesPow10Step(n, k);
      ScaleDown(n * Pow10(k - 1), e + k);
      ScaledShift(n, e, k - 1);
    }
  }

  // ---------------------------------------------------------------------
  // Canonical representation

  /** A representation whose fraction has no trailing zero digit. */
  predicate IsCanonical(d: Decimal) {
    d.exponent == 0 || d.mantissa % 10 != 0
  }

  /** Strips trailing zero digits of the fraction. */
  function Canonical(d: Decimal): (c: Decimal)
    ensures IsCanonical(c)
    ensures Value(c) == Value(d)
    decreases d.exponent
  {
    if d.exponent > 0 && d.mantissa % 10 == 0 then
      var q := d.mantissa / 10;
      ScaleDown(q, d.exponent);
      Canonical(Decimal(q, d.exponent - 1))
    else d
  }

  /** A mantissa scaled by a positive power of ten ends in a zero digit. */
  lemma {:induction false} ScaledByTen(m: int, k: nat)
    requires k > 0
    ensures (m * Pow10(k)) % 10 == 0
  {
    TimesPow10Step(m, k);
    TenTimesMod(m * Pow10(k - 1));
  }

  lemma TenTimesMod(y: int)
    ensures (10 * y) % 10 == 0
  {
  }

  lemma {:induction false} CanonicalUniqueOrdered(d1: Decimal, d2: Decimal)
    requires IsCanonical(d1) && IsCanonical(d2)
    requires Value(d1) == Value(d2)
    requires d1.exponent <= d2.exponent
    ensures d1 == d2
  {
    var k := d2.exponent - d1.exponent;
    ScaledShift(d1.mantissa, d1.exponent, k);
    ScaledInjective(d1.mantissa * Pow10(k), d2.mantissa, d2.exponent);
    if k > 0 {
      ScaledByTen(d1.mantissa, k);
    }
    assert k == 0;
  }

  /** Two canonical representations of one value are the same representation. */
  lemma {:induction false} CanonicalUnique(d1: Decimal, d2: Decimal)
    requires IsCanonical(d1) && IsCanonical(d2)
    requires Value(d1) == Value(d2)
    ensures d1 == d2
  {
    if d1.exponent <= d2.exponent {
      CanonicalUniqueOrdered(d1, d2);
    } else {
      CanonicalUniqueOrdered(d2, d1);
    }
  }

  // ---------------------------------------------------------------------
  // String(x)

  /** Euclidean division by a positive divisor gives a non-negative quotient
      and a remainder below the divisor. */
  lemma DivisionBounds(a: nat, p: nat)
    requires p >= 1
    ensures a / p >= 0
    ensures a % p < p
  {
  }

  function WholePart(a: nat, e: nat): nat {
    var p := Pow10(e);
    DivisionBounds(a, p);
    a / p
  }

  function FractionPart(a: nat, e: nat): (f: nat)
    ensures f < Pow10(e)
  {
    var p := Pow10(e);
    DivisionBounds(a, p);
    a % p
  }

  lemma WholeAndFraction(a: nat, e: nat)
    ensures a == WholePart(a, e) * Pow10(e) + FractionPart(a, e)
  {
  }

  /** The digits of `a / 10^e`: the integer part, then the fraction. */
  function UnsignedString(a: nat, e: nat): string {
    NatToString(WholePart(a, e)) + FractionString(a, e)
  }

  /** Nothing when `e == 0`, otherwise a point and the fraction of `a / 10^e`
      padded to `e` digits. */
  function FractionString(a: nat, e: nat): (s: string)
    ensures |s| == 0 || s[0] == '.'
  {
    if e == 0 then "" else "." + PadZeros(NatToString(FractionPart(a, e)), e)
  }

  /** `String(x)` for a number in plain (non-exponential) notation: an optional
      minus sign, the integer part, and, when the value is not integral, a point
      followed by the fraction without trailing zeros. */
  function NumberToString(d: Decimal): string {
    var c := Canonical(d);
    var sign := if c.mantissa < 0 then "-" else "";
    sign + UnsignedString(Abs(c.mantissa), c.exponent)
  }

  /** The rendering of a number depends only on its value. */
  lemma {:induction false} NumberToStringRespectsValue(d1: Decimal, d2: Decimal)
    requires Value(d1) == Value(d2)
    ensures NumberToString(d1) == NumberToString(d2)
  {
    CanonicalUnique(Canonical(d1), Canonical(d2));
  }

  /** An integral number renders as its plain decimal integer. */
  lemma {:induction false} NumberToStringOfInteger(d: Decimal, n: int)
    requires Value(d) == n as real
    ensures NumberToString(d) == IntToString(n)
  {
    var e := Decimal(n, 0);
    assert Value(e) == n as real;
    assert NumberToString(d) == NumberToString(e) by {
      NumberToStringRespectsValue(d, e);
    }
    WholeRendering(n);
  }

  lemma {:induction false} WholeRendering(n: int)
    ensures NumberToString(Decimal(n, 0)) == IntToString(n)
  {
    var e := Decimal(n, 0);
    assert Canonical(e) == e;
    var a := Abs(n);
    assert WholePart(a, 0) == a by {
      assert Pow10(0) == 1;
    }
    assert UnsignedString(a, 0) == NatToString(a) + "";
  }

  // ---------------------------------------------------------------------
  // Reference reader of decimal notation

  /** Reference reader of unsigned plain decimal notation `digits(.digits)?`. */
  function ParseUnsigned(body: string): Option<real> {
    var k := LeadingDigitCount(body, 10);
    if k == 0 then None
    else
      match ParseFraction(body[k..])
      case None => None
      case Some(f) => Some(DigitsValue(body[..k], 10) as real + f)
  }

  /** The value of what follows the integer part: nothing, or a point and at
      least one digit. */
  function ParseFraction(t: string): Option<real> {
    if |t| == 0 then Some(0.0)
    else if t[0] == '.' && |t| > 1 && LeadingDigitCount(t[1..], 10) == |t| - 1 then
      assert t[1..][..|t| - 1] == t[1..];
      Some(Scaled(DigitsValue(t[1..], 10), |t| - 1))
    else None
  }

  /** Reference reader of plain decimal notation `-?digits(.digits)?`; `None`
      for anything else. */
  function ParseDecimal(s: string): Option<real> {
    if |s| > 0 && s[0] == '-' then
      match ParseUnsigned(s[1..])
      case None => None
      case Some(v) => Some(-v)
    else ParseUnsigned(s)
  }

  /** How `ParseUnsigned` splits its input: the leading digit run, then the
      fraction. */
  lemma ParseUnsignedSplit(s: string)
    requires LeadingDigitCount(s, 10) > 0
    requires ParseFraction(s[LeadingDigitCount(s, 10)..]).Some?
    ensures ParseUnsigned(s) == Some(DigitsValue(s[..LeadingDigitCount(s, 10)], 10) as real
                                     + ParseFraction(s[LeadingDigitCount(s, 10)..]).value)
  {
  }

  /** A run of decimal digits followed by a well-formed fraction reads back
      as the sum of the two. */
  lemma {:induction false} ParseUnsignedConcat(w: string, t: string)
    requires |w| >= 1 && AllDigits(w, 10)
    requires |t| == 0 || t[0] == '.'
    requires ParseFraction(t).Some?
    ensures ParseUnsigned(w + t) == Some(DigitsValue(w, 10) as real + ParseFraction(t).value)
  {
    LeadingDigitCountOfConcat(w, t, 10);
    var s := w + t;
    assert s[..|w|] == w;
    assert s[|w|..] == t;
    ParseUnsignedSplit(s);
  }

  lemma {:induction false} ParseFractionDigits(f: string)
    requires |f| >= 1 && AllDigits(f, 10)
    ensures ParseFraction("." + f) == Some(Scaled(DigitsValue(f, 10), |f|))
  {
    LeadingDigitCountOfConcat(f, "", 10);
    assert f + "" == f;
    assert ("." + f)[1..] == f;
  }

  lemma {:induction false} FractionValue(a: nat, e: nat)
    ensures Scaled(a, e) == WholePart(a, e) as real + Scaled(FractionPart(a, e), e)
  {
    WholeAndFraction(a, e);
    ScaledAdd(WholePart(a, e) * Pow10(e), FractionPart(a, e), e);
    ScaledShift(WholePart(a, e), 0, e);
  }

  /** Reading back the digits of `a / 10^e` gives `a / 10^e`. */
  lemma {:induction false} UnsignedStringRoundTrip(a: nat, e: nat)
    ensures ParseUnsigned(UnsignedString(a, e)) == Some(Scaled(a, e))
  {
    var w := NatToString(WholePart(a, e));
    NatToStringValue(WholePart(a, e));
    if e == 0 {
      assert WholePart(a, e) == a;
      ParseUnsignedConcat(w, "");
    } else {
      var r := FractionPart(a, e);
      var frac := PadZeros(NatToString(r), e);
      NatToStringLength(r, e);
      PadZerosValue(NatToString(r), e);
      NatToStringValue(r);
      assert |frac| == e;
      assert FractionString(a, e) == "." + frac;
      ParseFractionDigits(frac);
      ParseUnsignedConcat(w, "." + frac);
      FractionValue(a, e);
    }
  }

  /** A leading minus sign negates what the rest reads as. */
  lemma {:induction false} ParseDecimalSigned(u: string, v: real, negative: bool, s: string, w: real)
    requires |u| > 0 && u[0] != '-'
    requires ParseUnsigned(u) == Some(v)
    requires s == (if negative then "-" else "") + u
    requires w == if negative then -v else v
    ensures ParseDecimal(s) == Some(w)
  {
    if negative {
      assert s[0] == '-';
      assert s[1..] == u;
    } else {
      assert s == u;
    }
  }

  /** An unsigned rendering starts with a digit. */
  lemma {:induction false} UnsignedStringStart(a: nat, e: nat)
    ensures |UnsignedString(a, e)| > 0 && UnsignedString(a, e)[0] != '-'
  {
    assert UnsignedString(a, e)[0] == NatToString(WholePart(a, e))[0];
  }

  lemma {:induction false} ScaledOfAbs(m: int, e: nat)
    ensures Scaled(m, e) == if m < 0 then -Scaled(Abs(m), e) else Scaled(Abs(m), e)
  {
    if m < 0 {
      ScaledNeg(Abs(m), e);
      assert m == -(Abs(m) as int);
    }
  }

  /** Reading `String(x)` back gives `x`: the rendering loses nothing. */
  lemma {:induction false} NumberToStringRoundTrip(d: Decimal)
    ensures ParseDecimal(NumberToString(d)) == Some(Value(d))
  {
    var c := Canonical(d);
    var a := Abs(c.mantissa);
    var e := c.exponent;
    var u := UnsignedString(a, e);
    assert ParseUnsigned(u) == Some(Scaled(a, e)) by {
      UnsignedStringRoundTrip(a, e);
    }
    assert |u| > 0 && u[0] != '-' by {
      UnsignedStringStart(a, e);
    }
    assert NumberToString(d) == (if c.mantissa < 0 then "-" else "") + u;
    assert Value(d) == if c.mantissa < 0 then -Scaled(a, e) else Scaled(a, e) by {
      assert Value(d) == Scaled(c.mantissa, e);
      ScaledOfAbs(c.mantissa, e);
    }
    ParseDecimalSigned(u, Scaled(a, e), c.mantissa < 0, NumberToString(d), Value(d));
  }

  // ---------------------------------------------------------------------
  // Uniqueness of the rendering

  /** Nothing for an empty fraction part, otherwise a point and its digits. */
  function FractionText(g: string): string {
    if |g| == 0 then "" else "." + g
  }

  /** Plain decimal text assembled from a sign, an integer part and a
      fraction part. */
  function PlainText(negative: bool, w: string, g: string): string {
    (if negative then "-" else "") + (w + FractionText(g))
  }

  /** The shape of `String(x)` in plain notation: at least one integer digit
      and no superfluous leading zero, no trailing zero in the fraction, and
      no minus sign on zero. */
  predicate IsCanonicalText(negative: bool, w: string, g: string) {
    && |w| >= 1 && AllDigits(w, 10) && (|w| == 1 || w[0] != '0')
    && AllDigits(g, 10) && (|g| == 0 || g[|g| - 1] != '0')
    && (negative ==> w != "0" || |g| > 0)
  }

  /** Euclidean division is pinned by its defining equation. */
  lemma {:induction false} DivModOf(a: nat, p: nat, q: nat, r: nat)
    requires r < p
    requires a == q * p + r
    ensures a / p == q && a % p == r
  {
    var q' := a / p;
    var r' := a % p;
    assert a == q' * p + r';
    if q' < q {
      MultipleAtLeast(q - q', p);
    } else if q < q' {
      MultipleAtLeast(q' - q, p);
    }
  }

  lemma MultipleAtLeast(k: nat, p: nat)
    requires k >= 1
    ensures k * p >= p
  {
  }

  lemma ModOfShifted(y: int, g: int)
    ensures (10 * y + g) % 10 == g % 10
  {
  }

  lemma ModOfNegated(m: int)
    requires m % 10 != 0
    ensures (-m) % 10 != 0
  {
  }

  /** The integer and fraction digits read as `w.g` are worth `W + G / 10^|g|`. */
  lemma {:induction false} PlainTextValue(negative: bool, w: string, g: string)
    requires IsCanonicalText(negative, w, g)
    ensures var v := DigitsValue(w, 10) as real + Scaled(DigitsValue(g, 10), |g|);
      ParseDecimal(PlainText(negative, w, g)) == Some(if negative then -v else v)
  {
    var f := FractionText(g);
    var v := DigitsValue(w, 10) as real + Scaled(DigitsValue(g, 10), |g|);
    assert ParseFraction(f) == Some(Scaled(DigitsValue(g, 10), |g|)) by {
      if |g| > 0 {
        ParseFractionDigits(g);
      } else {
        assert g[..0] == g;
      }
    }
    assert ParseUnsigned(w + f) == Some(v) by {
      ParseUnsignedConcat(w, f);
    }
    ParseDecimalSigned(w + f, v, negative, PlainText(negative, w, g), if negative then -v else v);
  }

  /** Digits read one after the other: the first run shifted left by the
      length of the second. */
  lemma {:induction false} DigitsValueConcat(w: string, g: string)
    requires AllDigits(w, 10) && AllDigits(g, 10)
    ensures AllDigits(w + g, 10)
    ensures DigitsValue(w + g, 10) == DigitsValue(w, 10) * Pow10(|g|) + DigitsValue(g, 10)
    decreases |g|
  {
    var s := w + g;
    assert AllDigits(s, 10) by {
      forall i | 0 <= i < |s|
        ensures IsDigit(s[i], 10)
      {
        if i >= |w| {
          assert s[i] == g[i - |w|];
        }
      }
    }
    if |g| == 0 {
      assert s == w;
    } else {
      var g' := g[..|g| - 1];
      assert s[..|s| - 1] == w + g';
      DigitsValueConcat(w, g');
      TimesPow10Step(DigitsValue(w, 10), |g|);
    }
  }

  /** The representation the text spells out: all its digits as the mantissa,
      one place of exponent per fraction digit. */
  function TextDecimal(negative: bool, w: string, g: string): Decimal
    requires AllDigits(w, 10) && AllDigits(g, 10)
  {
    DigitsValueConcat(w, g);
    var m: int := DigitsValue(w + g, 10);
    Decimal(if negative then -m else m, |g|)
  }

  lemma {:induction false} TextDecimalValue(negative: bool, w: string, g: string)
    requires IsCanonicalText(negative, w, g)
    ensures var v := DigitsValue(w, 10) as real + Scaled(DigitsValue(g, 10), |g|);
      Value(TextDecimal(negative, w, g)) == if negative then -v else v
  {
    var wv := DigitsValue(w, 10);
    var gv := DigitsValue(g, 10);
    DigitsValueConcat(w, g);
    var m := DigitsValue(w + g, 10);
    assert Scaled(m, |g|) == wv as real + Scaled(gv, |g|) by {
      ScaledAdd(wv * Pow10(|g|), gv, |g|);
      ScaledShift(wv, 0, |g|);
    }
    if negative {
      ScaledNeg(m, |g|);
    }
  }

  /** The text's representation has no trailing zero in its fraction. */
  lemma {:induction false} TextDecimalCanonical(negative: bool, w: string, g: string)
    requires IsCanonicalText(negative, w, g)
    ensures IsCanonical(TextDecimal(negative, w, g))
  {
    if |g| > 0 {
      DigitsValueConcat(w, g);
      var m := DigitsValue(w + g, 10);
      assert m % 10 != 0 by {
        assert (w + g)[|w + g| - 1] == g[|g| - 1];
        LastDigitNonZero(w + g);
      }
      if negative {
        ModOfNegated(m);
      }
    }
  }

  /** A magnitude spelled `w.g` splits back into `w` and `g`. */
  lemma {:induction false} UnsignedStringOfText(w: string, g: string)
    requires IsCanonicalText(false, w, g)
    ensures AllDigits(w + g, 10)
    ensures UnsignedString(DigitsValue(w + g, 10), |g|) == w + FractionText(g)
  {
    var wv := DigitsValue(w, 10);
    var gv := DigitsValue(g, 10);
    DigitsValueConcat(w, g);
    var a := DigitsValue(w + g, 10);
    assert WholePart(a, |g|) == wv && FractionPart(a, |g|) == gv by {
      DigitsValueBound(g);
      DivModOf(a, Pow10(|g|), wv, gv);
    }
    NatToStringOfDigits(w);
    if |g| > 0 {
      PadZerosOfDigits(g);
    }
  }

  /** The rendering of a canonical representation: its sign, then the digits
      of its magnitude. */
  lemma {:induction false} RenderingOfCanonical(c: Decimal)
    requires IsCanonical(c)
    ensures NumberToString(c) == (if c.mantissa < 0 then "-" else "") + UnsignedString(Abs(c.mantissa), c.exponent)
  {
    assert Canonical(c) == c;
  }

  /** A canonical-shaped text with a minus sign spells a non-zero magnitude. */
  lemma {:induction false} TextMagnitudePositive(w: string, g: string)
    requires IsCanonicalText(true, w, g)
    ensures AllDigits(w + g, 10)
    ensures DigitsValue(w + g, 10) > 0
  {
    DigitsValueConcat(w, g);
    if |g| > 0 {
      assert (w + g)[|w + g| - 1] == g[|g| - 1];
      LastDigitNonZero(w + g);
    } else {
      assert w + g == w;
      NatToStringOfDigits(w);
      assert w != NatToString(0);
    }
  }

  /** A canonical representation with magnitude `a` whose digits are `u`
      renders as `u` behind its sign. */
  lemma {:induction false} SignedRendering(t: Decimal, negative: bool, a: nat, u: string, s: string)
    requires IsCanonical(t)
    requires t.mantissa == if negative then -(a as int) else a
    requires negative ==> a > 0
    requires UnsignedString(a, t.exponent) == u
    requires s == (if negative then "-" else "") + u
    ensures NumberToString(t) == s
  {
    RenderingOfCanonical(t);
    assert Abs(t.mantissa) == a;
  }

  /** The text spelled by a canonical-shaped sign, integer part and fraction
      is the rendering of its own representation. */
  lemma {:induction false} NumberToStringOfText(negative: bool, w: string, g: string)
    requires IsCanonicalText(negative, w, g)
    ensures NumberToString(TextDecimal(negative, w, g)) == PlainText(negative, w, g)
  {
    DigitsValueConcat(w, g);
    var a := DigitsValue(w + g, 10);
    TextDecimalCanonical(negative, w, g);
    if negative {
      TextMagnitudePositive(w, g);
    }
    UnsignedStringOfText(w, g);
    SignedRendering(TextDecimal(negative, w, g), negative, a, w + FractionText(g), PlainText(negative, w, g));
  }

  /** The rendering is the only canonical-shaped text that reads back as the
      number: an optional minus sign, the integer digits without a superfluous
      leading zero, and a fraction without trailing zeros that reads as
      `Value(d)` is exactly `NumberToString(d)`. */
  lemma {:induction false} CanonicalTextIsRendering(d: Decimal, negative: bool, w: string, g: string)
    requires IsCanonicalText(negative, w, g)
    requires ParseDecimal(PlainText(negative, w, g)) == Some(Value(d))
    ensures NumberToString(d) == PlainText(negative, w, g)
  {
    var t := TextDecimal(negative, w, g);
    assert Value(t) == Value(d) by {
      PlainTextValue(negative, w, g);
      TextDecimalValue(negative, w, g);
    }
    NumberToStringRespectsValue(t, d);
    NumberToStringOfText(negative, w, g);
  }

  // ---------------------------------------------------------------------
  // Rounding

  /** `Math.round`: the nearest integer, halves rounded up. */
  function Round(x: real): (r: int)
    ensures r as real - 0.5 <= x < r as real + 0.5
  {
    (x + 0.5).Floor
  }

  /** Truncation toward zero, which is what `parseInt` keeps of a number's
      rendering. */
  function Trunc(x: real): (r: int)
    ensures 0.0 <= x ==> 0 <= r && r as real <= x < r as real + 1.0
    ensures x < 0.0 ==> r <= 0 && r as real - 1.0 < x <= r as real
  {
    if x >= 0.0 then x.Floor else -((-x).Floor)
  }

  /** The integer part of `a / 10^e` is its truncation. */
  lemma {:induction false} WholePartIsTrunc(a: nat, e: nat)
    ensures Trunc(Scaled(a, e)) == WholePart(a, e)
    ensures Trunc(Scaled(-(a as int), e)) == -(WholePart(a, e) as int)
  {
    var f := FractionPart(a, e);
    FractionValue(a, e);
    ScaledShift(1, 0, e);
    assert Scaled(Pow10(e), e) == 1.0;
    ScaledStrictlyMonotone(f, Pow10(e), e);
    ScaledNeg(0, e);
    if f > 0 {
      ScaledStrictlyMonotone(0, f, e);
    }
    assert 0.0 <= Scaled(f, e) < 1.0;
    ScaledNeg(a, e);
  }

  /** `x.toFixed(0)` in plain notation: the sign of a negative `x` is written
      first, then `|x|` rounded to the nearest integer with halves rounded up
      (so a negative `x` above -1/2 renders as "-0"). */
  function ToFixed0(x: real): (s: string)
    ensures x >= 0.0 ==> ParseDecimal(s) == Some(Round(x) as real)
    ensures x < 0.0 ==> ParseDecimal(s) == Some(-(Round(-x) as real))
  {
    var n := Round(if x < 0.0 then -x else x);
    NatToStringTrip(n);
    if x < 0.0 then "-" + NatToString(n) else NatToString(n)
  }

  lemma {:induction false} NatToStringTrip(n: nat)
    ensures ParseDecimal(NatToString(n)) == Some(n as real)
    ensures ParseDecimal("-" + NatToString(n)) == Some(-(n as real))
  {
    UnsignedStringRoundTrip(n, 0);
    assert WholePart(n, 0) == n;
    assert UnsignedString(n, 0) == NatToString(n);
    assert ("-" + NatToString(n))[1..] == NatToString(n);
  }

  /** On an integral value `toFixed(0)` is the plain decimal integer. */
  lemma {:induction false} ToFixed0OfInteger(n: int)
    ensures ToFixed0(n as real) == IntToString(n)
  {
    var x := n as real;
    var m := Round(if x < 0.0 then -x else x);
    assert m == Abs(n);
  }

  /** A rendering holds only a minus sign, digits and a point; in particular
      it never holds a space. */
  lemma {:induction false} NumberToStringAlphabet(d: Decimal)
    ensures forall i :: 0 <= i < |NumberToString(d)| ==>
      NumberToString(d)[i] == '-' || NumberToString(d)[i] == '.' || IsDigit(NumberToString(d)[i], 10)
  {
    var c := Canonical(d);
    var a := Abs(c.mantissa);
    var e := c.exponent;
    var sign := if c.mantissa < 0 then "-" else "";
    var w := NatToString(WholePart(a, e));
    var f := FractionString(a, e);
    var s := NumberToString(d);
    assert s == sign + w + f;
    if e > 0 {
      PadZerosValue(NatToString(FractionPart(a, e)), e);
    }
    forall i | 0 <= i < |s|
      ensures s[i] == '-' || s[i] == '.' || IsDigit(s[i], 10)
    {
      if i < |sign| {
        assert s[i] == '-';
      } else if i < |sign| + |w| {
        assert s[i] == w[i - |sign|];
      } else if i == |sign| + |w| {
        assert s[i] == f[0];
      } else {
        assert s[i] == f[i - |sign| - |w|];
        assert f[i - |sign| - |w|] == PadZeros(NatToString(FractionPart(a, e)), e)[i - |sign| - |w| - 1];
      }
    }
  }
}

=== FILE: js_string.dfy ===
/** The two string operations of the permit rule: `String.prototype.replace`
    with a string pattern (first occurrence only) and the global `parseInt`
    without a radix argument. */
module JsString {
  import opened Wrappers
  import opened Digits
  import opened JsNumber

  /** The white-space and line-terminator characters `parseInt` skips before
      the number (ECMAScript StrWhiteSpaceChar). */
  predicate IsWhitespace(c: char) {
    || c == '\t' || c == '\n' || c == '\r' || c == ' '
    || c as int == 0x0B || c as int == 0x0C || c as int == 0xA0 || c as int == 0x1680
    || (0x2000 <= c as int <= 0x200A)
    || c as int == 0x2028 || c as int == 0x2029 || c as int == 0x202F
    || c as int == 0x205F || c as int == 0x3000 || c as int == 0xFEFF
  }

  function TrimStart(s: string): (t: string)
    ensures |t| <= |s| && t == s[|s| - |t|..]
    ensures |t| == 0 || !IsWhitespace(t[0])
    ensures forall i :: 0 <= i < |s| - |t| ==> IsWhitespace(s[i])
  {
    if |s| > 0 && IsWhitespace(s[0]) then TrimStart(s[1..]) else s
  }

  /** `parseInt(s)`: skip leading white space, read an optional sign, switch
      to radix 16 after a "0x"/"0X" prefix, then read the longest run of digits;
      `None` stands for NaN, the result when that run is empty. */
  function ParseInt(s: string): Option<int> {
    var t := TrimStart(s);
    var negative := |t| > 0 && t[0] == '-';
    match ParseMagnitude(UnsignedPart(t))
    case None => None
    case Some(m) => Some(if negative then -(m as int) else m)
  }

  /** What follows one optional sign. */
  function UnsignedPart(t: string): (u: string)
    ensures u == t || (|t| > 0 && (t[0] == '-' || t[0] == '+') && u == t[1..])
  {
    if |t| > 0 && (t[0] == '-' || t[0] == '+') then t[1..] else t
  }

  /** Whether `parseInt` finds no number: after the white space and the sign
      there is no decimal digit, or a "0x"/"0X" prefix without a hexadecimal
      digit after it. */
  predicate ReadsAsNaN(s: string) {
    var u := UnsignedPart(TrimStart(s));
    || |u| == 0
    || !IsDigit(u[0], 10)
    || (|u| >= 2 && u[0] == '0' && (u[1] == 'x' || u[1] == 'X') && (|u| == 2 || !IsDigit(u[2], 16)))
  }

  /** A digit run is empty exactly when the first character is not a digit. */
  lemma {:induction false} LeadingDigitCountZero(s: string, radix: Radix)
    ensures LeadingDigitCount(s, radix) == 0 <==> |s| == 0 || !IsDigit(s[0], radix)
  {
    var k := LeadingDigitCount(s, radix);
    if k > 0 {
      assert s[..k][0] == s[0];
    }
  }

  /** `parseInt` gives NaN exactly in the cases `ReadsAsNaN` names. */
  lemma {:induction false} ParseIntNaNExact(s: string)
    ensures ParseInt(s).None? <==> ReadsAsNaN(s)
  {
    var u := UnsignedPart(TrimStart(s));
    var hex := |u| >= 2 && u[0] == '0' && (u[1] == 'x' || u[1] == 'X');
    if hex {
      LeadingDigitCountZero(u[2..], 16);
      assert IsDigit(u[0], 10);
      assert |u| > 2 ==> u[2..][0] == u[2];
    } else {
      LeadingDigitCountZero(u, 10);
    }
  }

  /** The unsigned part of `parseInt`: an optional hexadecimal prefix, then the
      longest run of digits in the radix it selects. */
  function ParseMagnitude(u: string): Option<nat> {
    var hex := |u| >= 2 && u[0] == '0' && (u[1] == 'x' || u[1] == 'X');
    var radix: Radix := if hex then 16 else 10;
    var digits := if hex then u[2..] else u;
    var k := LeadingDigitCount(digits, radix);
    if k == 0 then None else Some(DigitsValue(digits[..k], radix))
  }

  lemma {:induction false} ParseMagnitudeOfDigits(n: nat, rest: string)
    requires |rest| == 0 || !IsDigit(rest[0], 10)
    requires n == 0 ==> |rest| == 0 || (rest[0] != 'x' && rest[0] != 'X')
    ensures ParseMagnitude(NatToString(n) + rest) == Some(n)
  {
    var w := NatToString(n);
    var u := w + rest;
    if n == 0 {
      assert w == "0";
      assert |u| >= 2 ==> u[1] == rest[0];
    } else {
      assert u[0] == w[0];
    }
    LeadingDigitCountOfConcat(w, rest, 10);
    assert u[..|w|] == w;
    NatToStringValue(n);
  }

  lemma DigitIsNoSpaceOrSign(c: char)
    requires IsDigit(c, 10)
    ensures !IsWhitespace(c) && c != '-' && c != '+'
  {
    assert '0' <= c <= '9';
  }

  /** The decimal digits of `n`, followed by anything that cannot continue
      the number, read back as `n`. */
  lemma {:induction false} ParseIntOfNat(n: nat, rest: string, s: string)
    requires |rest| == 0 || !IsDigit(rest[0], 10)
    requires n == 0 ==> |rest| == 0 || (rest[0] != 'x' && rest[0] != 'X')
    requires s == NatToString(n) + rest
    ensures ParseInt(s) == Some(n)
  {
    assert s[0] == NatToString(n)[0];
    assert !IsWhitespace(s[0]) && s[0] != '-' && s[0] != '+' by {
      DigitIsNoSpaceOrSign(s[0]);
    }
    assert TrimStart(s) == s;
    assert ParseMagnitude(s) == Some(n) by {
      ParseMagnitudeOfDigits(n, rest);
    }
  }

  /** The same after a minus sign reads back as `-n`. */
  lemma {:induction false} ParseIntOfNegatedNat(n: nat, rest: string, s: string)
    requires |rest| == 0 || !IsDigit(rest[0], 10)
    requires n == 0 ==> |rest| == 0 || (rest[0] != 'x' && rest[0] != 'X')
    requires s == "-" + NatToString(n) + rest
    ensures ParseInt(s) == Some(-(n as int))
  {
    assert TrimStart(s) == s by {
      assert s[0] == '-';
    }
    assert ParseMagnitude(s[1..]) == Some(n) by {
      assert s[1..] == NatToString(n) + rest;
      ParseMagnitudeOfDigits(n, rest);
    }
  }

  /** The decimal digits of `n`, preceded by an optional minus sign and
      followed by anything that cannot continue the number, read back as `n`
      (or `-n`). */
  lemma {:induction false} ParseIntOfDigits(n: nat, negative: bool, rest: string)
    requires |rest| == 0 || !IsDigit(rest[0], 10)
    requires n == 0 ==> |rest| == 0 || (rest[0] != 'x' && rest[0] != 'X')
    ensures ParseInt((if negative then "-" else "") + NatToString(n) + rest)
         == Some(if negative then -(n as int) else n)
  {
    var s := (if negative then "-" else "") + NatToString(n) + rest;
    if negative {
      ParseIntOfNegatedNat(n, rest, s);
    } else {
      ParseIntOfNat(n, rest, s);
    }
  }

  lemma {:induction false} ParseIntOfIntToString(n: int)
    ensures ParseInt(IntToString(n)) == Some(n)
  {
    var s := IntToString(n);
    if n < 0 {
      ParseIntOfNegatedNat(-n, "", s);
    } else {
      ParseIntOfNat(n, "", s);
    }
  }

  /** `parseInt(String(x))` is `x` truncated toward zero: the rendering's
      fraction begins with a point, where the integer reading stops. */
  lemma {:induction false} ParseIntOfNumberToString(d: Decimal)
    ensures ParseInt(NumberToString(d)) == Some(Trunc(Value(d)))
  {
    var c := Canonical(d);
    var a := Abs(c.mantissa);
    var e := c.exponent;
    var w := NatToString(WholePart(a, e));
    var rest := FractionString(a, e);
    var sign := if c.mantissa < 0 then "-" else "";
    assert NumberToString(d) == sign + (w + rest);
    assert sign + (w + rest) == sign + w + rest;
    ParseIntOfDigits(WholePart(a, e), c.mantissa < 0, rest);
    WholePartIsTrunc(a, e);
    if c.mantissa < 0 {
      assert c.mantissa == -(a as int);
    }
  }

  /** A string that starts with anything other than white space, a sign or a
      decimal digit reads as NaN. */
  lemma {:induction false} ParseIntNaN(s: string)
    requires |s| > 0 && !IsWhitespace(s[0]) && s[0] != '-' && s[0] != '+' && !IsDigit(s[0], 10)
    ensures ParseInt(s).None?
  {
    var t := TrimStart(s);
    assert |t| == |s|;
    assert t == s;
    assert LeadingDigitCount(s, 10) == 0;
  }

  /** `pattern` occurs in `s` starting at index `i`. */
  predicate OccursAt(s: string, pattern: string, i: nat) {
    i + |pattern| <= |s| && s[i..i + |pattern|] == pattern
  }

  /** The first index at or after `from` where `pattern` occurs, if any. */
  function IndexOf(s: string, pattern: string, from: nat): (r: Option<nat>)
    ensures r.Some? ==> from <= r.value && OccursAt(s, pattern, r.value)
    ensures r.Some? ==> forall j :: from <= j < r.value ==> !OccursAt(s, pattern, j)
    ensures r.None? ==> forall j :: from <= j ==> !OccursAt(s, pattern, j)
    decreases |s| - from
  {
    if from + |pattern| > |s| then None
    else if OccursAt(s, pattern, from) then Some(from)
    else IndexOf(s, pattern, from + 1)
  }

  /** `s.replace(pattern, replacement)` with a string pattern: only the first
      occurrence is replaced, and `s` is returned unchanged when there is none.
      The replacement is inserted literally: `$` patterns such as `$&` are not
      expanded, which matters nowhere here because the only replacement used
      is "". */
  function ReplaceFirst(s: string, pattern: string, replacement: string): string {
    match IndexOf(s, pattern, 0)
    case None => s
    case Some(i) => s[..i] + replacement + s[i + |pattern|..]
  }

  /** A string in which the pattern does not occur is left unchanged. */
  lemma ReplaceFirstUnchanged(s: string, pattern: string, replacement: string)
    requires forall j: nat :: !OccursAt(s, pattern, j)
    ensures ReplaceFirst(s, pattern, replacement) == s
  {
  }

  /** In particular, a string without the first character of the pattern. */
  lemma {:induction false} ReplaceFirstAbsent(s: string, pattern: string, replacement: string)
    requires |pattern| > 0
    requires forall i :: 0 <= i < |s| ==> s[i] != pattern[0]
    ensures ReplaceFirst(s, pattern, replacement) == s
  {
    forall j: nat | j + |pattern| <= |s|
      ensures !OccursAt(s, pattern, j)
    {
      assert s[j..j + |pattern|][0] == s[j];
    }
    ReplaceFirstUnchanged(s, pattern, replacement);
  }

  /** With an occurrence at `i` and none before it, exactly that one is replaced. */
  lemma {:induction false} ReplaceFirstAt(s: string, pattern: string, replacement: string, i: nat)
    requires OccursAt(s, pattern, i)
    requires forall j :: 0 <= j < i ==> !OccursAt(s, pattern, j)
    ensures ReplaceFirst(s, pattern, replacement) == s[..i] + replacement + s[i + |pattern|..]
  {
    var r := IndexOf(s, pattern, 0);
    assert r.Some?;
    assert r.value == i;
  }
}

=== FILE: json.dfy ===
/** Parsed JSON values and HTTP exchanges as the proxy and the client see them.

    A JSON object is a map from keys to values: `JSON.parse` keeps the last of
    duplicate keys, so the parsed object never has two. */
module Json {
  import opened JsNumber

  datatype Json =
    | Null
    | Bool(b: bool)
    | Num(n: Decimal)
    | Str(s: string)
    | Arr(items: seq<Json>)
    | Obj(fields: map<string, Json>)
}

/** What an HTTP request produced: no response at all (the `fetch` promise
    rejects), or a status line with a body that `response.json()` either
    parses or rejects. */
module Http {
  import opened Json
  import opened Digits

  datatype Body = Unparseable | Parsed(json: Json)

  datatype Outcome =
    | NetworkFailure
    | Response(status: int, statusText: string, body: Body)

  /** `response.ok`. */
  predicate IsOk(status: int) {
    200 <= status <= 299
  }

  /** The error message both the proxy and the client build from a failed
      status line. */
  function StatusFailureMessage(status: int, statusText: string): string {
    "Failed to fetch skips: " + IntToString(status) + " " + statusText
  }

  /** The `{ error: message }` body the proxy sends with every failure. */
  function ErrorBody(message: string): Json {
    Obj(map["error" := Str(message)])
  }
}

=== FILE: permit_check.dfy ===
/** The permit page (client/src/pages/permit-check.tsx): which skip is
    selected, whether it needs a council permit for road placement, and the
    copy and progress steps the page shows as a result. */
module PermitCheck {
  import opened Wrappers
  import opened Digits
  import opened JsNumber
  import opened JsString
  import opened SkipApi

  /** The selected id state: `null`, a number, or `NaN` from an unreadable
      query parameter. */
  datatype SelectedId = NoSelection | Id(n: int) | NotANumber

  /** The mount effect: a non-empty `skipId` parameter is read with
      `parseInt`; an absent or empty one leaves the initial `null`. */
  function ReadSkipId(param: Option<string>): (sel: SelectedId)
    ensures param.None? || param.value == "" ==> sel == NoSelection
    ensures param.Some? && param.value != "" ==> sel != NoSelection
  {
    if param.None? || param.value == "" then NoSelection
    else match ParseInt(param.value)
      case None => NotANumber
      case Some(n) => Id(n)
  }

  /** JavaScript truthiness of the selected id: `null`, `0` and `NaN` are
      falsy. */
  predicate Truthy(sel: SelectedId) {
    sel.Id? && sel.n != 0
  }

  /** `skips?.find(skip => skip.id === selectedSkipId)`; `null` and `NaN`
      equal no id. */
  function SelectedSkip(skips: Option<seq<Skip>>, sel: SelectedId): (r: Option<Skip>)
    ensures r.Some? ==> skips.Some? && sel.Id? && r.value in skips.value && r.value.id == sel.n as real
  {
    if skips.Some? && sel.Id? then FindById(skips.value, sel.n as real) else None
  }

  /** The permit rule: drop the first " Yard", read the leading integer, and
      require a permit from 10 upward. An unreadable size is `NaN`, and
      `NaN >= 10` is false. */
  predicate RequiresPermit(size: string) {
    match ParseInt(ReplaceFirst(size, " Yard", ""))
    case None => false
    case Some(count) => count >= 10
  }

  /** The permit effect: the flag is recomputed only when the selected id is
      truthy, the list has loaded and a skip with that id is found; otherwise
      it keeps its value. */
  function PermitEffect(sel: SelectedId, skips: Option<seq<Skip>>, permitRequired: bool): bool {
    if Truthy(sel) && skips.Some? then
      match FindById(skips.value, sel.n as real)
      case None => permitRequired
      case Some(skip) => RequiresPermit(skip.size)
    else permitRequired
  }

  /** The page state; the flag starts false. */
  datatype PageState = PageState(selected: SelectedId, permitRequired: bool)

  function InitialState(param: Option<string>): (st: PageState)
    ensures !st.permitRequired
  {
    PageState(ReadSkipId(param), false)
  }

  function Settle(st: PageState, skips: Option<seq<Skip>>): PageState {
    st.(permitRequired := PermitEffect(st.selected, skips, st.permitRequired))
  }

  // ---------------------------------------------------------------------
  // The rule

  /** Removing the first " Yard" after a run of digits keeps the digits and
      what follows the " Yard". */
  lemma {:induction false} ReplaceYardAfterDigits(w: string, rest: string)
    requires AllDigits(w, 10)
    ensures ReplaceFirst(w + " Yard" + rest, " Yard", "") == w + rest
  {
    var s := w + " Yard" + rest;
    forall j | 0 <= j < |w|
      ensures !OccursAt(s, " Yard", j)
    {
      assert s[j] == w[j];
      if j + 5 <= |s| {
        assert s[j..j + 5][0] == s[j];
      }
    }
    assert s[|w|..|w| + 5] == " Yard";
    ReplaceFirstAt(s, " Yard", "", |w|);
    assert s[..|w|] == w;
    assert s[|w| + 5..] == rest;
  }

  /** A decimal count followed by " Yard" and anything that cannot continue
      the count: the count decides. */
  lemma {:induction false} RequiresPermitOfYards(n: nat, rest: string)
    requires |rest| == 0 || !IsDigit(rest[0], 10)
    requires n == 0 ==> |rest| == 0 || (rest[0] != 'x' && rest[0] != 'X')
    ensures RequiresPermit(NatToString(n) + " Yard" + rest) <==> n >= 10
  {
    YardStripOfCount(n, rest);
    ParseIntOfNat(n, rest, NatToString(n) + rest);
    RequiresPermitOfParts(NatToString(n) + " Yard" + rest, NatToString(n) + rest, n);
  }

  lemma {:induction false} YardStripOfCount(n: nat, rest: string)
    ensures ReplaceFirst(NatToString(n) + " Yard" + rest, " Yard", "") == NatToString(n) + rest
  {
    ReplaceYardAfterDigits(NatToString(n), rest);
  }

  /** The rule, given what the removal leaves and what that reads as. */
  lemma RequiresPermitOfParts(size: string, stripped: string, count: int)
    requires ReplaceFirst(size, " Yard", "") == stripped
    requires ParseInt(stripped) == Some(count)
    ensures RequiresPermit(size) <==> count >= 10
  {
  }

  /** Nine yards need no permit; ten do. */
  lemma RequiresPermitThreshold()
    ensures !RequiresPermit(NatToString(9) + " Yard")
    ensures RequiresPermit(NatToString(10) + " Yard")
    ensures !RequiresPermit(NumberToString(Decimal(9, 0)))
    ensures RequiresPermit(NumberToString(Decimal(10, 0)))
  {
    RequiresPermitOfYards(9, "");
    RequiresPermitOfYards(10, "");
    assert NatToString(9) + " Yard" + "" == NatToString(9) + " Yard";
    assert NatToString(10) + " Yard" + "" == NatToString(10) + " Yard";
    RequiresPermitOfRenderedSize(Decimal(9, 0));
    RequiresPermitOfRenderedSize(Decimal(10, 0));
  }

  /** A size that, once its first " Yard" is removed, reads as no number
      gives "no permit", not an error. */
  lemma {:induction false} UnreadableSizeNeedsNoPermit(size: string)
    requires ReadsAsNaN(ReplaceFirst(size, " Yard", ""))
    ensures ParseInt(ReplaceFirst(size, " Yard", "")).None?
    ensures !RequiresPermit(size)
  {
    ParseIntNaNExact(ReplaceFirst(size, " Yard", ""));
  }

  /** In particular, a size starting with anything but white space, a sign or
      a digit: removing " Yard" keeps that first character. */
  lemma {:induction false} LetterFirstSizeNeedsNoPermit(size: string)
    requires |size| > 0 && !IsWhitespace(size[0])
    requires size[0] != '-' && size[0] != '+' && !IsDigit(size[0], 10)
    ensures !RequiresPermit(size)
  {
    var r := ReplaceFirst(size, " Yard", "");
    if 5 <= |size| {
      assert size[0..5][0] == size[0];
    }
    assert r[0] == size[0];
    ParseIntNaN(r);
  }

  /** The size a record gets from the transform is a plain number, so the
      rule asks whether the upstream size is at least 10. */
  lemma {:induction false} RequiresPermitOfRenderedSize(d: Decimal)
    ensures RequiresPermit(NumberToString(d)) <==> Value(d) >= 10.0
  {
    var s := NumberToString(d);
    NumberToStringAlphabet(d);
    ReplaceFirstAbsent(s, " Yard", "");
    ParseIntOfNumberToString(d);
  }

  // ---------------------------------------------------------------------
  // The effect

  /** The flag keeps its value unless the rule runs: a falsy id (`null`, `0`,
      `NaN`), a list not yet loaded, or an id no skip has. */
  lemma {:induction false} PermitEffectUnchanged(sel: SelectedId, skips: Option<seq<Skip>>, permitRequired: bool)
    requires !Truthy(sel) || skips.None? || forall k :: 0 <= k < |skips.value| ==> skips.value[k].id != sel.n as real
    ensures PermitEffect(sel, skips, permitRequired) == permitRequired
  {
    if Truthy(sel) && skips.Some? {
      FindByIdFirst(skips.value, sel.n as real);
    }
  }

  /** When the rule runs, the flag is the rule applied to the first skip
      with the selected id, the same skip the page displays. */
  lemma {:induction false} PermitEffectApplies(sel: SelectedId, skips: seq<Skip>, permitRequired: bool, i: nat)
    requires Truthy(sel) && IsFirstWithId(skips, sel.n as real, i)
    ensures PermitEffect(sel, Some(skips), permitRequired) == RequiresPermit(skips[i].size)
    ensures SelectedSkip(Some(skips), sel) == Some(skips[i])
  {
    FindByIdFirst(skips, sel.n as real);
  }

  /** Running the effect again changes nothing. */
  lemma SettleIdempotent(st: PageState, skips: Option<seq<Skip>>)
    ensures Settle(Settle(st, skips), skips) == Settle(st, skips)
  {
  }

  /** From the initial state, the flag is raised only for a found skip whose
      size needs a permit. */
  lemma SettledFlagMeansPermit(param: Option<string>, skips: Option<seq<Skip>>)
    ensures var st := Settle(InitialState(param), skips);
      st.permitRequired ==> SelectedSkip(skips, st.selected).Some? && RequiresPermit(SelectedSkip(skips, st.selected).value.size)
  {
  }

  /** A skip with id 0 is displayed as the selection (the first such skip),
      but the rule never runs for it, so the flag keeps its value. */
  lemma {:induction false} ZeroIdShownWithoutRule(skips: seq<Skip>, i: nat, permitRequired: bool)
    requires IsFirstWithId(skips, 0.0, i)
    ensures SelectedSkip(Some(skips), Id(0)) == Some(skips[i])
    ensures Settle(PageState(Id(0), permitRequired), Some(skips)).permitRequired == permitRequired
  {
    FindByIdFirst(skips, 0.0);
  }

  /** A present `skipId` that is the rendering of an integer selects that
      integer; "0" selects id 0, which is falsy. */
  lemma {:induction false} ReadSkipIdOfInteger(n: int)
    ensures ReadSkipId(Some(IntToString(n))) == Id(n)
    ensures Truthy(ReadSkipId(Some(IntToString(n)))) <==> n != 0
  {
    assert |IntToString(n)| > 0;
    ParseIntOfIntToString(n);
  }

  /** A `skipId` that reads as NaN, in any of the ways `ReadsAsNaN` names,
      selects nothing and never runs the rule. */
  lemma {:induction false} NonNumericIdSelectsNothing(param: string, skips: Option<seq<Skip>>, permitRequired: bool)
    requires |param| > 0 && ReadsAsNaN(param)
    ensures ReadSkipId(Some(param)) == NotANumber
    ensures SelectedSkip(skips, NotANumber).None?
    ensures PermitEffect(NotANumber, skips, permitRequired) == permitRequired
  {
    ParseIntNaNExact(param);
  }

  // ---------------------------------------------------------------------
  // Copy and steps

  /** The copy the page shows for a flag value. */
  datatype PermitCopy = PermitCopy(
    statusTitle: string,
    statusPoints: seq<string>,
    roadWarningIcon: bool,
    roadNote: string,
    roadPoints: seq<string>,
    privateNote: string,
    privatePoints: seq<string>)

  const NoPermitSentence: string := "No permit required."
  const PrivateNote: string := "Place the skip on your driveway, garden, or private land. " + NoPermitSentence
  const PrivatePoints: seq<string> := ["No additional costs", "Immediate placement", "Full control over access"]

  /** The status card's heading. */
  function StatusTitle(permitRequired: bool): string {
    if permitRequired then "Permit Required" else "No Permit Required"
  }

  function StatusPoints(permitRequired: bool): seq<string> {
    if permitRequired then
      ["Permit costs typically range from £20-£50",
       "Applications can take 3-5 working days to process",
       "We can help arrange the permit for you",
       "Alternative: Place skip on your private property"]
    else
      ["No additional costs or waiting time",
       "Skip can be delivered immediately upon booking",
       "Suitable for private property placement",
       "Road placement allowed for this skip size"]
  }

  /** The sentence that ends the road-placement option's description. */
  function RoadNote(permitRequired: bool): string {
    if permitRequired then " Permit required." else " No permit needed."
  }

  function RoadPoints(permitRequired: bool): seq<string> {
    if permitRequired then
      ["Council permit required", "Additional cost £20-£50", "3-5 day processing time"]
    else
      ["No permit required", "Road placement allowed", "Easy access for loading"]
  }

  /** The flag-dependent copy the permit page writes. */
  function Copy(permitRequired: bool): PermitCopy {
    PermitCopy(
      StatusTitle(permitRequired), StatusPoints(permitRequired),
      permitRequired,
      RoadNote(permitRequired), RoadPoints(permitRequired),
      PrivateNote, PrivatePoints)
  }

  /** The private-property option reads "No permit required" whatever the
      flag. */
  lemma PrivateOptionFixed(permitRequired: bool)
    ensures Copy(permitRequired).privateNote == PrivateNote
    ensures Copy(permitRequired).privatePoints == PrivatePoints
    ensures OccursAt(PrivateNote, NoPermitSentence, |PrivateNote| - |NoPermitSentence|)
  {
    var k := |PrivateNote| - |NoPermitSentence|;
    assert PrivateNote[k..] == NoPermitSentence;
  }

  /** The status title, the road icon and the road note all follow the flag,
      and the two copies differ. */
  lemma CopyFollowsFlag(permitRequired: bool)
    ensures Copy(permitRequired).statusTitle == "Permit Required" <==> permitRequired
    ensures Copy(permitRequired).roadWarningIcon <==> permitRequired
    ensures Copy(permitRequired).roadNote == " Permit required." <==> permitRequired
    ensures Copy(permitRequired) != Copy(!permitRequired)
  {
    assert "Permit Required"[0] != "No Permit Required"[0];
    assert " Permit required."[1] != " No permit needed."[1];
  }

  /** The circle classes of a progress step: completed wins over active. */
  function CircleClass(isCompleted: bool, isActive: bool): string {
    if isCompleted then "bg-orange-600 text-black"
    else if isActive then "bg-orange-500 text-black"
    else "bg-gray-600 text-gray-300"
  }

  function LabelClass(isActive: bool): string {
    if isActive then "text-white" else "text-gray-400"
  }

  lemma StepIndicatorPrecedence(isCompleted: bool, isActive: bool)
    ensures isCompleted ==> CircleClass(isCompleted, isActive) == CircleClass(true, false)
    ensures CircleClass(isCompleted, isActive) == "bg-orange-500 text-black" <==> !isCompleted && isActive
    ensures CircleClass(isCompleted, isActive) == "bg-gray-600 text-gray-300" <==> !isCompleted && !isActive
    ensures LabelClass(isActive) == "text-white" <==> isActive
  {
    assert "bg-orange-600 text-black"[10] != "bg-orange-500 text-black"[10];
    assert "bg-orange-600 text-black"[3] != "bg-gray-600 text-gray-300"[3];
    assert "text-white"[5] != "text-gray-400"[5];
  }

  datatype Step = Step(caption: string, isCompleted: bool, isActive: bool)

  /** The permit page's progress steps. */
  const PermitSteps: seq<Step> := [
    Step("Postcode", true, false),
    Step("Waste Type", true, false),
    Step("Select Skip", true, false),
    Step("Permit Check", false, true),
    Step("Choose Date", false, false),
    Step("Payment", false, false)]

  /** The first three steps are done, the permit check is the one active
      step, and the rest are idle. */
  lemma PermitStepsShape()
    ensures |PermitSteps| == 6
    ensures forall i :: 0 <= i < |PermitSteps| ==> (PermitSteps[i].isCompleted <==> i < 3)
    ensures forall i :: 0 <= i < |PermitSteps| ==> (PermitSteps[i].isActive <==> PermitSteps[i].caption == "Permit Check")
    ensures forall i :: 0 <= i < |PermitSteps| ==> (LabelClass(PermitSteps[i].isActive) == "text-white" <==> i == 3)
  {
    assert "Postcode"[0] != "Permit Check"[0] || "Postcode"[1] != "Permit Check"[1];
    assert "Payment"[1] != "Permit Check"[1];
    assert "text-white"[5] != "text-gray-400"[5];
  }
}

=== FILE: pipeline.dfy ===
/** The whole path a skip list takes: upstream service, server proxy
    (server/routes.ts), client fetch and schema (client/src/lib/api.ts), and
    the pages that consume the records. */
module Pipeline {
  import opened Wrappers
  import opened JsNumber
  import opened Json
  import Http
  import opened SkipsRoute
  import opened SkipApi
  import PermitCheck
  import Display
  import SkipCard
  import SkipSelection

  /** What the client's fetch sees: the proxy's reply status and body. */
  function ClientView(reply: Reply, statusText: string): Http.Outcome {
    Http.Response(ReplyStatus(reply), statusText, Http.Parsed(ReplyBody(reply)))
  }

  /** The client's result for an upstream outcome. */
  function ClientFetch(upstream: Http.Outcome, statusText: string): Result<seq<Skip>, FetchError> {
    FetchSkips(ClientView(Handle(upstream), statusText))
  }

  /** A bare array, `{skips: [...]}` and `{data: [...]}` give the client the
      same result. */
  lemma {:induction false} EnvelopesAgree(xs: seq<Json>, upstreamText: string, statusText: string)
    ensures var bare := ClientFetch(Http.Response(200, upstreamText, Http.Parsed(Arr(xs))), statusText);
      && ClientFetch(Http.Response(200, upstreamText, Http.Parsed(Obj(map["skips" := Arr(xs)]))), statusText) == bare
      && ClientFetch(Http.Response(200, upstreamText, Http.Parsed(Obj(map["data" := Arr(xs)]))), statusText) == bare
  {
    assert "skips" != "data";
  }

  /** The client gets a list exactly when the upstream answered with an ok
      status, a parseable body holding one of the three shapes, and every
      record in it is valid; the list is then those records transformed, in
      order. */
  lemma {:induction false} ClientSucceedsExactly(upstream: Http.Outcome, statusText: string)
    ensures ClientFetch(upstream, statusText).Success? <==>
      && upstream.Response?
      && Http.IsOk(upstream.status)
      && upstream.body.Parsed?
      && Unwrap(upstream.body.json).Records?
      && ParseAll(Unwrap(upstream.body.json).items).Some?
    ensures ClientFetch(upstream, statusText).Success? ==>
      ClientFetch(upstream, statusText).value == ParseAll(Unwrap(upstream.body.json).items).value
  {
    HandleOutcomes(upstream);
  }

  /** Every proxy failure reaches the client as a status failure carrying the
      proxy's status: the upstream's own for a non-ok answer, 500 otherwise. */
  lemma {:induction false} FailuresReachClient(upstream: Http.Outcome, statusText: string)
    ensures upstream.Response? && !Http.IsOk(upstream.status) ==>
      ClientFetch(upstream, statusText) == Failure(HttpStatus(upstream.status, Http.StatusFailureMessage(upstream.status, statusText)))
    ensures Handle(upstream).ErrorReply? ==>
      ClientFetch(upstream, statusText) == Failure(HttpStatus(Handle(upstream).status, Http.StatusFailureMessage(Handle(upstream).status, statusText)))
    ensures upstream == Http.Response(200, "OK", Http.Parsed(Obj(map[]))) ==>
      ClientFetch(upstream, statusText) == Failure(HttpStatus(500, Http.StatusFailureMessage(500, statusText)))
  {
    HandleOutcomes(upstream);
  }

  /** A record from the service needs a permit exactly when its size is at
      least 10 yards: the display size is a plain number, the " Yard" removal
      finds nothing, and `parseInt` truncates. */
  lemma {:induction false} PermitForServiceRecord(r: RawSkip)
    ensures PermitCheck.RequiresPermit(Transform(r).size) <==> Value(r.size) >= 10.0
  {
    PermitCheck.RequiresPermitOfRenderedSize(r.size);
  }

  /** On the permit page, once the list has loaded and the selected id is
      truthy, the flag says whether the first record with that id is at least
      10 yards. */
  lemma {:induction false} PermitFlagForSelection(raws: seq<RawSkip>, sel: PermitCheck.SelectedId, i: nat, flag: bool)
    requires PermitCheck.Truthy(sel)
    requires i < |raws| && Value(raws[i].id) == sel.n as real
    requires forall k :: 0 <= k < i ==> Value(raws[k].id) != sel.n as real
    ensures var skips := seq(|raws|, k requires 0 <= k < |raws| => Transform(raws[k]));
      PermitCheck.PermitEffect(sel, Some(skips), flag) <==> Value(raws[i].size) >= 10.0
  {
    var skips := seq(|raws|, k requires 0 <= k < |raws| => Transform(raws[k]));
    assert IsFirstWithId(skips, sel.n as real, i);
    PermitCheck.PermitEffectApplies(sel, skips, flag, i);
    PermitForServiceRecord(raws[i]);
  }

  /** Records from the service never show a savings block and always show the
      default image, on both cards. */
  lemma ServiceRecordsShowNoDiscount(r: RawSkip)
    ensures SkipCard.Card(Transform(r)).savings.None?
    ensures SkipCard.Card(Transform(r)).imageSrc == SkipCard.DefaultImageUrl
    ensures SkipSelection.OptionCardOf(Transform(r)).savings.None?
    ensures SkipSelection.OptionCardOf(Transform(r)).imageSrc == SkipSelection.DefaultImage
  {
  }

  /** On the selection page a service record shows its three tags, and on
      the card all four of its feature lines. */
  lemma {:induction false} ServiceRecordLists(r: RawSkip)
    ensures SkipSelection.OptionCardOf(Transform(r)).tags == Some(SuitableFor(Value(r.size)))
    ensures SkipCard.Card(Transform(r)).features == Features(r)
    ensures |SkipCard.Card(Transform(r)).features| == 4
  {
    SuitableForBuckets(Value(r.size));
    FeaturesShape(r);
  }
}

=== FILE: routes.dfy ===
/** The server's `/api/skips` proxy (server/routes.ts): it forwards the
    upstream skip list, accepting three body shapes, and turns every failure
    into an `{ error }` reply with a status. */
module SkipsRoute {
  import opened Wrappers
  import opened Json
  import Http

  /** What the handler extracts from the parsed body. `Thrown` is the
      `TypeError` raised by reading `.skips` of `null`. */
  datatype Envelope = Records(items: seq<Json>) | NoEnvelope | Thrown

  /** The reply: the list as is with the default status 200, or an error body
      with a status. */
  datatype Reply = Forward(items: seq<Json>) | ErrorReply(status: int, message: string)

  const InvalidStructure: string := "Invalid API response structure"
  const FetchFailed: string := "Failed to fetch skip data"

  /** The array under `key`, if the body is an object holding one there. */
  function ArrayMember(data: Json, key: string): Option<seq<Json>> {
    if data.Obj? && key in data.fields && data.fields[key].Arr? then Some(data.fields[key].items)
    else None
  }

  /** The body itself if it is an array, else its `skips` array, else its
      `data` array. */
  function Unwrap(data: Json): Envelope {
    if data.Arr? then Records(data.items)
    else if data.Null? then Thrown
    else match ArrayMember(data, "skips")
      case Some(xs) => Records(xs)
      case None =>
        match ArrayMember(data, "data")
        case Some(xs) => Records(xs)
        case None => NoEnvelope
  }

  /** Not part of the route: a reading of the status and JSON body sent back
      into a `Reply`. It exists only to state, in `ReplyWireForm`, that the
      status and body the route sends lose nothing of the reply. */
  function ToReply(status: int, body: Json): Reply {
    if status == 200 && body.Arr? then Forward(body.items)
    else if body.Obj? && "error" in body.fields && body.fields["error"].Str? then ErrorReply(status, body.fields["error"].s)
    else ErrorReply(status, "")
  }

  /** The handler, given the upstream outcome: a network failure or an
      unparseable body is caught like a thrown error. */
  function Handle(upstream: Http.Outcome): Reply {
    match upstream
    case NetworkFailure => ErrorReply(500, FetchFailed)
    case Response(status, statusText, body) =>
      if !Http.IsOk(status) then ErrorReply(status, Http.StatusFailureMessage(status, statusText))
      else match body
        case Unparseable => ErrorReply(500, FetchFailed)
        case Parsed(data) =>
          match Unwrap(data)
          case Records(xs) => Forward(xs)
          case NoEnvelope => ErrorReply(500, InvalidStructure)
          case Thrown => ErrorReply(500, FetchFailed)
  }

  /** The reply's wire form: what `res.status(...).json(...)` sends. */
  function ReplyStatus(r: Reply): int {
    match r
    case Forward(_) => 200
    case ErrorReply(status, _) => status
  }

  function ReplyBody(r: Reply): Json {
    match r
    case Forward(xs) => Arr(xs)
    case ErrorReply(_, message) => Http.ErrorBody(message)
  }

  // ---------------------------------------------------------------------
  // Reference definition of the unwrap order

  /** The candidate arrays in the order the handler tries them. */
  function Candidates(data: Json): seq<Option<seq<Json>>> {
    [if data.Arr? then Some(data.items) else None, ArrayMember(data, "skips"), ArrayMember(data, "data")]
  }

  /** The first present candidate. */
  function FirstPresent(cs: seq<Option<seq<Json>>>): Option<seq<Json>> {
    if |cs| == 0 then None
    else if cs[0].Some? then cs[0]
    else FirstPresent(cs[1..])
  }

  /** Apart from `null`, which throws, the handler returns exactly the first
      of body, `skips`, `data` that is an array. */
  lemma {:induction false} UnwrapIsFirstArray(data: Json)
    ensures Unwrap(data) == Thrown <==> data == Null
    ensures data != Null ==>
      (Unwrap(data).Records? <==> FirstPresent(Candidates(data)).Some?)
    ensures data != Null && Unwrap(data).Records? ==> Unwrap(data).items == FirstPresent(Candidates(data)).value
  {
    var cs := Candidates(data);
    assert FirstPresent(cs[1..][1..][1..]) == None;
    assert FirstPresent(cs[1..][1..]) == ArrayMember(data, "data");
    assert FirstPresent(cs[1..]) == if ArrayMember(data, "skips").Some? then ArrayMember(data, "skips") else ArrayMember(data, "data");
  }

  /** A bare array is forwarded unchanged. */
  lemma BareArrayForwarded(xs: seq<Json>, statusText: string)
    ensures Handle(Http.Response(200, statusText, Http.Parsed(Arr(xs)))) == Forward(xs)
    ensures ReplyBody(Forward(xs)) == Arr(xs) && ReplyStatus(Forward(xs)) == 200
  {
  }

  /** An object's `skips` array wins over its `data` array; `data` is used
      only when `skips` is missing or not an array. */
  lemma SkipsBeforeData(fields: map<string, Json>)
    ensures "skips" in fields && fields["skips"].Arr? ==> Unwrap(Obj(fields)) == Records(fields["skips"].items)
    ensures ("skips" !in fields || !fields["skips"].Arr?) && "data" in fields && fields["data"].Arr? ==>
      Unwrap(Obj(fields)) == Records(fields["data"].items)
    ensures ("skips" !in fields || !fields["skips"].Arr?) && ("data" !in fields || !fields["data"].Arr?) ==>
      Unwrap(Obj(fields)) == NoEnvelope
  {
  }

  /** `{skips: {}, data: [...]}` yields `data`, and `{}` has no envelope. */
  lemma {:induction false} EnvelopeExamples(xs: seq<Json>)
    ensures Unwrap(Obj(map["skips" := Obj(map[]), "data" := Arr(xs)])) == Records(xs)
    ensures Handle(Http.Response(200, "OK", Http.Parsed(Obj(map[])))) == ErrorReply(500, InvalidStructure)
  {
    var m := map["skips" := Obj(map[]), "data" := Arr(xs)];
    assert "skips" in m && "data" in m;
    assert m["data"] == Arr(xs);
  }

  /** Which reply each upstream outcome gets: a non-ok status is forwarded
      with a message naming it; every thrown failure is 500 with the generic
      message; a body without an envelope is 500 with its own message; the
      list is forwarded otherwise. */
  lemma {:induction false} HandleOutcomes(upstream: Http.Outcome)
    ensures upstream.Response? && !Http.IsOk(upstream.status) ==>
      Handle(upstream) == ErrorReply(upstream.status, Http.StatusFailureMessage(upstream.status, upstream.statusText))
    ensures Handle(upstream) == ErrorReply(500, FetchFailed) <==>
      || upstream.NetworkFailure?
      || (Http.IsOk(upstream.status) && (upstream.body.Unparseable? || upstream.body.json == Null))
    ensures Handle(upstream) == ErrorReply(500, InvalidStructure) <==>
      upstream.Response? && Http.IsOk(upstream.status) && upstream.body.Parsed? && Unwrap(upstream.body.json) == NoEnvelope
    ensures Handle(upstream).Forward? <==>
      upstream.Response? && Http.IsOk(upstream.status) && upstream.body.Parsed? && Unwrap(upstream.body.json).Records?
    ensures Handle(upstream).Forward? ==> Handle(upstream).items == Unwrap(upstream.body.json).items
  {
    assert FetchFailed != InvalidStructure by {
      assert FetchFailed[0] != InvalidStructure[0];
    }
    if upstream.Response? && !Http.IsOk(upstream.status) {
      StatusMessageDiffers(upstream.status, upstream.statusText);
    }
  }

  /** The forwarded-status message is never one of the fixed messages. */
  lemma {:induction false} StatusMessageDiffers(status: int, statusText: string)
    ensures Http.StatusFailureMessage(status, statusText) != FetchFailed
    ensures Http.StatusFailureMessage(status, statusText) != InvalidStructure
  {
    var m := Http.StatusFailureMessage(status, statusText);
    assert m[20] == 's' && FetchFailed[20] == ' ';
    assert m[0] != InvalidStructure[0];
  }

  /** Error replies carry their message in an `error` field, and the status
      and body sent determine the reply. */
  lemma ReplyWireForm(r: Reply)
    ensures ToReply(ReplyStatus(r), ReplyBody(r)) == r
    ensures r.ErrorReply? ==> ReplyBody(r).Obj? && ReplyBody(r).fields["error"] == Str(r.message)
  {
  }
}

=== FILE: skip_api.dfy ===
/** The client's ingestion of the skip list (client/src/lib/api.ts): a raw
    upstream record is checked against a fixed schema of fields and types,
    then mapped to the display record the pages render. A list is accepted
    only if every element is. */
module SkipApi {
  import opened Wrappers
  import opened Json
  import opened JsNumber
  import opened Digits
  import Http

  /** A record as the upstream pricing service sends it, once validated. */
  datatype RawSkip = RawSkip(
    id: Decimal,
    size: Decimal,
    hirePeriodDays: Decimal,
    transportCost: Option<Decimal>,
    perTonneCost: Option<Decimal>,
    priceBeforeVat: Decimal,
    vat: Decimal,
    postcode: string,
    area: string,
    forbidden: bool,
    createdAt: string,
    updatedAt: string,
    allowedOnRoad: bool,
    allowsHeavyWaste: bool)

  /** The display record the pages and cards consume. Optional fields are
      `None` where the object has no such property (or holds `undefined`). */
  datatype Skip = Skip(
    id: real,
    name: string,
    size: string,
    dimensions: Option<string>,
    capacity: Option<string>,
    price: real,
    originalPrice: Option<real>,
    imageUrl: Option<string>,
    suitableFor: Option<seq<string>>,
    isPopular: Option<bool>,
    features: Option<seq<string>>)

  // ---------------------------------------------------------------------
  // Validation

  function NumberField(fields: map<string, Json>, key: string): Option<Decimal> {
    if key in fields && fields[key].Num? then Some(fields[key].n) else None
  }

  /** A number or `null`; a missing key is rejected like a wrong type. */
  function NullableNumberField(fields: map<string, Json>, key: string): Option<Option<Decimal>> {
    if key in fields && fields[key].Num? then Some(Some(fields[key].n))
    else if key in fields && fields[key].Null? then Some(None)
    else None
  }

  function StringField(fields: map<string, Json>, key: string): Option<string> {
    if key in fields && fields[key].Str? then Some(fields[key].s) else None
  }

  function BoolField(fields: map<string, Json>, key: string): Option<bool> {
    if key in fields && fields[key].Bool? then Some(fields[key].b) else None
  }

  /** The raw schema: an object with every listed field of the listed type;
      other fields are ignored. */
  function ValidateRaw(j: Json): Option<RawSkip> {
    if !j.Obj? then None
    else
      var f := j.fields;
      var id :- NumberField(f, "id");
      var size :- NumberField(f, "size");
      var hire :- NumberField(f, "hire_period_days");
      var transport :- NullableNumberField(f, "transport_cost");
      var perTonne :- NullableNumberField(f, "per_tonne_cost");
      var price :- NumberField(f, "price_before_vat");
      var vat :- NumberField(f, "vat");
      var postcode :- StringField(f, "postcode");
      var area :- StringField(f, "area");
      var forbidden :- BoolField(f, "forbidden");
      var created :- StringField(f, "created_at");
      var updated :- StringField(f, "updated_at");
      var road :- BoolField(f, "allowed_on_road");
      var heavy :- BoolField(f, "allows_heavy_waste");
      Some(RawSkip(id, size, hire, transport, perTonne, price, vat, postcode, area,
                   forbidden, created, updated, road, heavy))
  }

  function NullableNumber(n: Option<Decimal>): Json {
    match n
    case None => Null
    case Some(d) => Num(d)
  }

  /** The JSON object the upstream sends for a record: the partner of
      `ValidateRaw`. */
  function RawToJson(r: RawSkip): Json {
    Obj(map[
      "id" := Num(r.id),
      "size" := Num(r.size),
      "hire_period_days" := Num(r.hirePeriodDays),
      "transport_cost" := NullableNumber(r.transportCost),
      "per_tonne_cost" := NullableNumber(r.perTonneCost),
      "price_before_vat" := Num(r.priceBeforeVat),
      "vat" := Num(r.vat),
      "postcode" := Str(r.postcode),
      "area" := Str(r.area),
      "forbidden" := Bool(r.forbidden),
      "created_at" := Str(r.createdAt),
      "updated_at" := Str(r.updatedAt),
      "allowed_on_road" := Bool(r.allowedOnRoad),
      "allows_heavy_waste" := Bool(r.allowsHeavyWaste)])
  }

  /** `j` is an object holding every schema field with `r`'s value for it. */
  predicate Carries(j: Json, r: RawSkip) {
    && j.Obj?
    && var f := j.fields;
    && "id" in f && f["id"] == Num(r.id)
    && "size" in f && f["size"] == Num(r.size)
    && "hire_period_days" in f && f["hire_period_days"] == Num(r.hirePeriodDays)
    && "transport_cost" in f && f["transport_cost"] == NullableNumber(r.transportCost)
    && "per_tonne_cost" in f && f["per_tonne_cost"] == NullableNumber(r.perTonneCost)
    && "price_before_vat" in f && f["price_before_vat"] == Num(r.priceBeforeVat)
    && "vat" in f && f["vat"] == Num(r.vat)
    && "postcode" in f && f["postcode"] == Str(r.postcode)
    && "area" in f && f["area"] == Str(r.area)
    && "forbidden" in f && f["forbidden"] == Bool(r.forbidden)
    && "created_at" in f && f["created_at"] == Str(r.createdAt)
    && "updated_at" in f && f["updated_at"] == Str(r.updatedAt)
    && "allowed_on_road" in f && f["allowed_on_road"] == Bool(r.allowedOnRoad)
    && "allows_heavy_waste" in f && f["allows_heavy_waste"] == Bool(r.allowsHeavyWaste)
  }

  lemma NullableNumberFieldExact(f: map<string, Json>, key: string, n: Option<Decimal>)
    ensures NullableNumberField(f, key) == Some(n) <==> key in f && f[key] == NullableNumber(n)
  {
  }

  lemma {:induction false} ValidateRawSound(j: Json)
    ensures ValidateRaw(j).Some? ==> Carries(j, ValidateRaw(j).value)
  {
    if ValidateRaw(j).Some? {
      var r := ValidateRaw(j).value;
      NullableNumberFieldExact(j.fields, "transport_cost", r.transportCost);
      NullableNumberFieldExact(j.fields, "per_tonne_cost", r.perTonneCost);
    }
  }

  lemma {:induction false} ValidateRawComplete(j: Json, r: RawSkip)
    ensures Carries(j, r) ==> ValidateRaw(j) == Some(r)
  {
    if Carries(j, r) {
      NullableNumberFieldExact(j.fields, "transport_cost", r.transportCost);
      NullableNumberFieldExact(j.fields, "per_tonne_cost", r.perTonneCost);
    }
  }

  /** Validation accepts exactly the objects that carry every schema field with
      the right type, and reads each field's value as it is. */
  lemma {:induction false} ValidateRawExact(j: Json, r: RawSkip)
    ensures ValidateRaw(j) == Some(r) <==> Carries(j, r)
  {
    ValidateRawSound(j);
    ValidateRawComplete(j, r);
  }

  /** Adding further fields under an object keeps every field it carries. */
  lemma CarriesUnderExtraFields(j: Json, r: RawSkip, extra: map<string, Json>)
    requires Carries(j, r)
    ensures Carries(Obj(extra + j.fields), r)
  {
  }

  /** The encoding of a record validates back to that record, and so does any
      object that adds further fields to it. */
  lemma {:induction false} ValidateRawOfEncoding(r: RawSkip, extra: map<string, Json>)
    ensures ValidateRaw(RawToJson(r)) == Some(r)
    ensures ValidateRaw(Obj(extra + RawToJson(r).fields)) == Some(r)
  {
    var j := RawToJson(r);
    assert Carries(j, r);
    assert ValidateRaw(j) == Some(r) by {
      ValidateRawComplete(j, r);
    }
    var k := Obj(extra + j.fields);
    assert Carries(k, r) by {
      CarriesUnderExtraFields(j, r, extra);
    }
    ValidateRawComplete(k, r);
  }

  /** The schema fields; `transport_cost` and `per_tonne_cost` may be `null`. */
  const SchemaKeys: set<string> := {"id", "size", "hire_period_days", "transport_cost", "per_tonne_cost",
                                    "price_before_vat", "vat", "postcode", "area", "forbidden",
                                    "created_at", "updated_at", "allowed_on_road", "allows_heavy_waste"}

  const NullableKeys: set<string> := {"transport_cost", "per_tonne_cost"}

  /** A validated object has every schema field, and `null` only in the
      nullable ones. */
  lemma {:induction false} ValidatedFields(j: Json)
    ensures ValidateRaw(j).Some? ==> j.Obj? && SchemaKeys <= j.fields.Keys
    ensures ValidateRaw(j).Some? ==> forall k :: k in SchemaKeys && k !in NullableKeys ==> j.fields[k] != Null
  {
    ValidateRawSound(j);
  }

  /** A missing schema field, or `null` in a field that is not nullable,
      rejects the record; so does anything that is not an object. */
  lemma {:induction false} ValidateRawRejects(j: Json, key: string)
    requires key in SchemaKeys
    requires !j.Obj? || key !in j.fields || (key !in NullableKeys && j.fields[key] == Null)
    ensures ValidateRaw(j).None?
  {
    ValidatedFields(j);
  }

  // ---------------------------------------------------------------------
  // Transformation

  const GardenTags: seq<string> := ["Garden clearance", "Small renovations", "House clearouts"]
  const HomeTags: seq<string> := ["Home renovations", "Garden projects", "Construction waste"]
  const LargeTags: seq<string> := ["Large construction", "Commercial projects", "Major clearouts"]

  /** The use-case tags chosen by size bucket: up to 4 yards, up to 8 yards,
      larger. */
  function SuitableFor(size: real): seq<string> {
    if size <= 4.0 then GardenTags else if size <= 8.0 then HomeTags else LargeTags
  }

  /** The price including VAT, rounded to whole pounds by `Math.round`. */
  function PriceWithVat(priceBeforeVat: real, vat: real): int {
    Round(priceBeforeVat * (1.0 + vat / 100.0))
  }

  /** The four feature lines: hire period, delivery, road placement, waste type. */
  function Features(r: RawSkip): seq<string> {
    [ NumberToString(r.hirePeriodDays) + "-day hire period",
      "Free delivery & collection",
      if r.allowedOnRoad then "Road placement allowed" else "Private land only",
      if r.allowsHeavyWaste then "Heavy waste accepted" else "Standard waste only" ]
  }

  /** The schema's `transform`: the display record of a validated raw record. */
  function Transform(r: RawSkip): Skip {
    var size := NumberToString(r.size);
    Skip(
      id := Value(r.id),
      name := size + " Yard Skip",
      size := size,
      dimensions := Some("Suitable for " + size + " cubic yards of waste"),
      capacity := Some(size + " cubic yards"),
      price := PriceWithVat(Value(r.priceBeforeVat), Value(r.vat)) as real,
      originalPrice := None,
      imageUrl := None,
      suitableFor := Some(SuitableFor(Value(r.size))),
      isPopular := Some(Value(r.size) == 6.0),
      features := Some(Features(r)))
  }

  /** The size is rendered so that it reads back as the same number, and the
      name and descriptions are built around that rendering. */
  lemma {:induction false} TransformKeepsSize(r: RawSkip)
    ensures Transform(r).size == NumberToString(r.size)
    ensures ParseDecimal(Transform(r).size) == Some(Value(r.size))
    ensures Transform(r).name == Transform(r).size + " Yard Skip"
    ensures Transform(r).capacity == Some(Transform(r).size + " cubic yards")
    ensures Transform(r).id == Value(r.id)
  {
    NumberToStringRoundTrip(r.size);
  }

  /** A whole-number size is written as its plain decimal integer, so a size
      of 4 gives the name "4 Yard Skip". */
  lemma {:induction false} TransformSizeOfInteger(r: RawSkip, n: int)
    requires Value(r.size) == n as real
    ensures Transform(r).size == IntToString(n)
    ensures Transform(r).name == IntToString(n) + " Yard Skip"
  {
    NumberToStringOfInteger(r.size, n);
  }

  /** The price is the whole number nearest to the VAT-inclusive price (halves
      round up), so an already-whole price is kept; it is never negative for a
      non-negative net price and a VAT rate of at least -100%. */
  lemma PriceWithVatNearest(priceBeforeVat: real, vat: real)
    ensures var gross := priceBeforeVat * (1.0 + vat / 100.0);
      PriceWithVat(priceBeforeVat, vat) as real - 0.5 <= gross < PriceWithVat(priceBeforeVat, vat) as real + 0.5
    ensures var gross := priceBeforeVat * (1.0 + vat / 100.0);
      gross.Floor as real == gross ==> PriceWithVat(priceBeforeVat, vat) == gross.Floor
    ensures priceBeforeVat >= 0.0 && vat >= -100.0 ==> PriceWithVat(priceBeforeVat, vat) >= 0
  {
    var factor := 1.0 + vat / 100.0;
    if priceBeforeVat >= 0.0 && vat >= -100.0 {
      assert factor >= 0.0;
      NonNegativeProduct(priceBeforeVat, factor);
    }
  }

  lemma NonNegativeProduct(a: real, b: real)
    requires a >= 0.0 && b >= 0.0
    ensures a * b >= 0.0
  {
  }

  /** Every record gets exactly three tags, chosen by the size's bucket. */
  lemma SuitableForBuckets(size: real)
    ensures |SuitableFor(size)| == 3
    ensures SuitableFor(size) == GardenTags <==> size <= 4.0
    ensures SuitableFor(size) == HomeTags <==> 4.0 < size <= 8.0
    ensures SuitableFor(size) == LargeTags <==> 8.0 < size
  {
    assert GardenTags[0] != HomeTags[0] && GardenTags[0] != LargeTags[0] && HomeTags[0] != LargeTags[0];
  }

  /** Only a 6-yard skip is marked popular; the transform never sets an
      original price or an image. */
  lemma TransformFlags(r: RawSkip)
    ensures Transform(r).isPopular == Some(true) <==> Value(r.size) == 6.0
    ensures Transform(r).isPopular.Some?
    ensures Transform(r).originalPrice.None? && Transform(r).imageUrl.None?
  {
  }

  /** Four feature lines; the first begins with the hire period, which reads
      back as the same number; the road and waste lines follow the flags. */
  lemma {:induction false} FeaturesShape(r: RawSkip)
    ensures |Features(r)| == 4
    ensures var f := Features(r)[0];
      |f| >= |"-day hire period"| && ParseDecimal(f[..|f| - |"-day hire period"|]) == Some(Value(r.hirePeriodDays))
    ensures Features(r)[1] == "Free delivery & collection"
    ensures Features(r)[2] == "Road placement allowed" <==> r.allowedOnRoad
    ensures Features(r)[3] == "Heavy waste accepted" <==> r.allowsHeavyWaste
  {
    var h := NumberToString(r.hirePeriodDays);
    var f := h + "-day hire period";
    assert f[..|f| - |"-day hire period"|] == h;
    NumberToStringRoundTrip(r.hirePeriodDays);
    assert "Road placement allowed"[0] != "Private land only"[0];
    assert "Heavy waste accepted"[0] != "Standard waste only"[0];
  }

  /** The transform reads only id, size, hire period, price, VAT and the two
      placement flags: costs, location, timestamps and `forbidden` are
      ignored. */
  lemma TransformIgnores(r1: RawSkip, r2: RawSkip)
    requires r1.id == r2.id && r1.size == r2.size && r1.hirePeriodDays == r2.hirePeriodDays
    requires r1.priceBeforeVat == r2.priceBeforeVat && r1.vat == r2.vat
    requires r1.allowedOnRoad == r2.allowedOnRoad && r1.allowsHeavyWaste == r2.allowsHeavyWaste
    ensures Transform(r1) == Transform(r2)
  {
  }

  // ---------------------------------------------------------------------
  // Lists and the fetch

  /** The array schema: every element validated and transformed, in order;
      one failing element fails the whole list. */
  function ParseAll(items: seq<Json>): (r: Option<seq<Skip>>)
    ensures r.Some? <==> forall i :: 0 <= i < |items| ==> ValidateRaw(items[i]).Some?
    ensures r.Some? ==> |r.value| == |items|
    ensures r.Some? ==> forall i :: 0 <= i < |items| ==> r.value[i] == Transform(ValidateRaw(items[i]).value)
  {
    if |items| == 0 then Some([])
    else
      var first :- ValidateRaw(items[0]);
      var rest :- ParseAll(items[1..]);
      assert forall i :: 1 <= i < |items| ==> items[i] == items[1..][i - 1];
      Some([Transform(first)] + rest)
  }

  /** `skipsApiResponseSchema.parse`: an array of valid records, or nothing. */
  function ParseSkipList(j: Json): Option<seq<Skip>> {
    if j.Arr? then ParseAll(j.items) else None
  }

  datatype FetchError =
    | NetworkError
    | HttpStatus(status: int, message: string)
    | InvalidJson
    | SchemaMismatch

  /** `fetchSkips`: a failed status line is reported before the body is read;
      the body must then parse as JSON and match the array schema. */
  function FetchSkips(response: Http.Outcome): Result<seq<Skip>, FetchError> {
    match response
    case NetworkFailure => Failure(NetworkError)
    case Response(status, statusText, body) =>
      if !Http.IsOk(status) then Failure(HttpStatus(status, Http.StatusFailureMessage(status, statusText)))
      else match body
        case Unparseable => Failure(InvalidJson)
        case Parsed(j) =>
          match ParseSkipList(j)
          case None => Failure(SchemaMismatch)
          case Some(skips) => Success(skips)
  }

  /** Lists: splitting the input splits the result, and a forbidden record is
      kept like any other. */
  lemma {:induction false} ParseAllAppend(a: seq<Json>, b: seq<Json>)
    ensures ParseAll(a + b).Some? <==> ParseAll(a).Some? && ParseAll(b).Some?
    ensures ParseAll(a + b).Some? ==> ParseAll(a + b).value == ParseAll(a).value + ParseAll(b).value
  {
    AllValidAppend(a, b);
    if ParseAll(a + b).Some? {
      ParsedAppend(a, b);
    }
  }

  /** Every element of `a + b` is valid exactly when every element of `a` and
      of `b` is. */
  lemma {:induction false} AllValidAppend(a: seq<Json>, b: seq<Json>)
    ensures (forall i :: 0 <= i < |a + b| ==> ValidateRaw((a + b)[i]).Some?) <==>
      (forall i :: 0 <= i < |a| ==> ValidateRaw(a[i]).Some?) && (forall i :: 0 <= i < |b| ==> ValidateRaw(b[i]).Some?)
  {
    var ab := a + b;
    assert forall i :: 0 <= i < |a| ==> ab[i] == a[i];
    assert forall i :: 0 <= i < |b| ==> ab[|a| + i] == b[i];
    assert forall i :: |a| <= i < |ab| ==> ab[i] == b[i - |a|];
  }

  lemma {:induction false} ParsedAppend(a: seq<Json>, b: seq<Json>)
    requires ParseAll(a + b).Some? && ParseAll(a).Some? && ParseAll(b).Some?
    ensures ParseAll(a + b).value == ParseAll(a).value + ParseAll(b).value
  {
    var ab := a + b;
    var whole := ParseAll(ab).value;
    var joined := ParseAll(a).value + ParseAll(b).value;
    forall i | 0 <= i < |ab|
      ensures whole[i] == joined[i]
    {
      if i < |a| {
        assert ab[i] == a[i];
      } else {
        assert ab[i] == b[i - |a|];
      }
    }
  }

  lemma {:induction false} ForbiddenKept(j: Json, r: RawSkip)
    requires Carries(j, r) && r.forbidden
    ensures ParseSkipList(Arr([j])) == Some([Transform(r)])
  {
    ValidateRawComplete(j, r);
    assert [j][0] == j;
    var parsed := ParseAll([j]);
    assert parsed.Some? && |parsed.value| == 1 && parsed.value[0] == Transform(r);
    assert parsed.value == [Transform(r)];
  }

  /** A failed status is reported whatever the body holds; otherwise the fetch
      succeeds exactly when the body is an array of valid records. */
  lemma FetchSkipsOutcome(response: Http.Outcome)
    ensures response.Response? && !Http.IsOk(response.status) ==>
      FetchSkips(response) == Failure(HttpStatus(response.status, Http.StatusFailureMessage(response.status, response.statusText)))
    ensures FetchSkips(response).Success? <==>
      response.Response? && Http.IsOk(response.status) && response.body.Parsed? && ParseSkipList(response.body.json).Some?
    ensures FetchSkips(response).Success? ==> FetchSkips(response).value == ParseSkipList(response.body.json).value
  {
  }

  // ---------------------------------------------------------------------
  // Lookup

  /** `skips.find(s => s.id === id)`: the first skip with that id. */
  function FindById(skips: seq<Skip>, id: real): (r: Option<Skip>)
    ensures r.Some? ==> r.value.id == id && r.value in skips
  {
    if |skips| == 0 then None
    else if skips[0].id == id then Some(skips[0])
    else FindById(skips[1..], id)
  }

  /** The index of the first skip with that id; the reference for `FindById`. */
  predicate IsFirstWithId(skips: seq<Skip>, id: real, i: nat) {
    i < |skips| && skips[i].id == id && forall k :: 0 <= k < i ==> skips[k].id != id
  }

  lemma {:induction false} FindByIdFirst(skips: seq<Skip>, id: real)
    ensures FindById(skips, id).None? <==> forall k :: 0 <= k < |skips| ==> skips[k].id != id
    ensures forall i: nat :: IsFirstWithId(skips, id, i) ==> FindById(skips, id) == Some(skips[i])
    decreases |skips|
  {
    if |skips| > 0 {
      FindByIdFirst(skips[1..], id);
      forall i: nat | IsFirstWithId(skips, id, i)
        ensures FindById(skips, id) == Some(skips[i])
      {
        if i > 0 {
          assert IsFirstWithId(skips[1..], id, i - 1);
        }
      }
      if skips[0].id != id && FindById(skips, id).None? {
        forall k | 0 <= k < |skips|
          ensures skips[k].id != id
        {
          if k > 0 {
            assert skips[k] == skips[1..][k - 1];
          }
        }
      }
    }
  }
}

=== FILE: skip_card.dfy ===
/** The skip card component (client/src/components/skip-card.tsx): what it
    shows for one display record. */
module SkipCard {
  import opened Wrappers
  import opened SkipApi
  import opened Display

  const DefaultImageUrl: string := "https://images.unsplash.com/photo-1558618666-fcd25c85cd64?ixlib=rb-4.0.3&ixid=MnwxMjA3fDB8MHxwaG90by1wYWdlfHx8fGVufDB8fHx8&auto=format&fit=crop&w=800&h=600"

  const DefaultFeatures: seq<string> := ["Free delivery & collection", "14-day hire period", "Same day delivery available"]
  const DefaultSuitableFor: seq<string> := ["Garden clearance", "Small renovations", "House clearouts"]

  /** `skip.features || defaults`: an array, even an empty one, is truthy. */
  function FeatureLines(skip: Skip): seq<string> {
    match skip.features
    case Some(lines) => lines
    case None => DefaultFeatures
  }

  /** `skip.suitableFor || defaults`. */
  function TagLines(skip: Skip): seq<string> {
    match skip.suitableFor
    case Some(tags) => tags
    case None => DefaultSuitableFor
  }

  /** Everything the card renders, in order. */
  datatype CardView = CardView(
    imageSrc: string,
    popularBadge: bool,
    sizeBadge: string,
    title: string,
    dimensionsLine: Option<string>,
    capacityLine: Option<string>,
    tags: seq<string>,
    priceText: string,
    savings: Option<SavingsView>,
    features: seq<string>)

  function Card(skip: Skip): CardView {
    CardView(
      imageSrc := ImageSource(skip.imageUrl, DefaultImageUrl),
      popularBadge := skip.isPopular == Some(true),
      sizeBadge := skip.size,
      title := skip.name,
      dimensionsLine := ShownText(skip.dimensions),
      capacityLine := ShownText(skip.capacity),
      tags := TagLines(skip),
      priceText := FormatPrice(skip.price),
      savings := SavingsLines(skip.price, skip.originalPrice),
      features := FeatureLines(skip))
  }

  /** The defaults apply only to absent lists: a present empty list renders
      nothing, and a present list renders as is, in order. */
  lemma ListDefaults(skip: Skip)
    ensures skip.features.Some? ==> Card(skip).features == skip.features.value
    ensures skip.features.None? ==> Card(skip).features == DefaultFeatures
    ensures skip.features == Some([]) ==> |Card(skip).features| == 0
    ensures skip.suitableFor.Some? ==> Card(skip).tags == skip.suitableFor.value
    ensures skip.suitableFor.None? ==> Card(skip).tags == DefaultSuitableFor
  {
  }

  /** The default tags are the smallest bucket's, whatever the skip's size. */
  lemma {:induction false} DefaultTagsAreSmallest(skip: Skip)
    requires skip.suitableFor.None?
    ensures Card(skip).tags == SkipApi.SuitableFor(4.0)
    ensures forall size: real :: size > 4.0 ==> Card(skip).tags != SkipApi.SuitableFor(size)
  {
    forall size: real | size > 4.0
      ensures Card(skip).tags != SkipApi.SuitableFor(size)
    {
      SuitableForBuckets(size);
    }
  }

  /** The card's derived parts: the badge shows iff the skip is popular, the
      savings block iff the discount condition holds, and then it shows the
      original price and a positive saving; the image falls back to the
      default. */
  lemma CardDerivations(skip: Skip)
    ensures Card(skip).popularBadge <==> skip.isPopular == Some(true)
    ensures Card(skip).savings.Some? <==>
      skip.originalPrice.Some? && skip.originalPrice.value != 0.0 && skip.originalPrice.value > skip.price
    ensures Card(skip).savings.Some? ==>
      Card(skip).savings.value.was == FormatPrice(skip.originalPrice.value) &&
      Card(skip).savings.value.save == FormatPrice(skip.originalPrice.value - skip.price) &&
      skip.originalPrice.value - skip.price > 0.0
    ensures Card(skip).imageSrc == DefaultImageUrl <==> skip.imageUrl.None? || skip.imageUrl.value in {"", DefaultImageUrl}
    ensures Card(skip).dimensionsLine.Some? <==> skip.dimensions.Some? && skip.dimensions.value != ""
  {
  }
}

=== FILE: skip_selection.dfy ===
/** The skip selection page (client/src/pages/skip-selection.tsx): which view
    it shows, the option card for each skip, and what selecting a card finds. */
module SkipSelection {
  import opened Wrappers
  import opened SkipApi
  import opened Display

  const DefaultImage: string := "https://images.unsplash.com/photo-1558618666-fcd25c85cd64?ixlib=rb-4.0.3&auto=format&fit=crop&w=800&h=600"

  /** The option card's feature lines, the same for every skip. */
  const FixedFeatures: seq<string> := ["Free delivery & collection", "14-day hire period", "Same day delivery available"]

  /** The tag section: hidden for an absent or empty list, otherwise the
      first three tags (`slice(0, 3)`). */
  function VisibleTags(suitableFor: Option<seq<string>>): Option<seq<string>> {
    if suitableFor.Some? && |suitableFor.value| > 0 then
      Some(if |suitableFor.value| <= 3 then suitableFor.value else suitableFor.value[..3])
    else None
  }

  datatype OptionCard = OptionCard(
    imageSrc: string,
    popularBadge: bool,
    sizeBadge: string,
    title: string,
    dimensionsLine: Option<string>,
    capacityLine: Option<string>,
    tags: Option<seq<string>>,
    priceText: string,
    savings: Option<SavingsView>,
    features: seq<string>)

  function OptionCardOf(skip: Skip): OptionCard {
    OptionCard(
      imageSrc := ImageSource(skip.imageUrl, DefaultImage),
      popularBadge := skip.isPopular == Some(true),
      sizeBadge := skip.size,
      title := skip.name,
      dimensionsLine := ShownText(skip.dimensions),
      capacityLine := ShownText(skip.capacity),
      tags := VisibleTags(skip.suitableFor),
      priceText := FormatPrice(skip.price),
      savings := SavingsLines(skip.price, skip.originalPrice),
      features := FixedFeatures)
  }

  /** What the page renders. */
  datatype PageView = Loading | Failed(message: string) | List(cards: seq<OptionCard>)

  /** The query state decides the view: loading first, then an error, then
      one card per skip (none while the data is absent). */
  function View(isLoading: bool, error: Option<string>, skips: Option<seq<Skip>>): (v: PageView)
    ensures v.List? ==> |v.cards| == (if skips.Some? then |skips.value| else 0)
    ensures v.List? ==> forall i :: 0 <= i < |v.cards| ==> v.cards[i] == OptionCardOf(skips.value[i])
  {
    if isLoading then Loading
    else if error.Some? then Failed(error.value)
    else if skips.None? then List([])
    else List(seq(|skips.value|, i requires 0 <= i < |skips.value| => OptionCardOf(skips.value[i])))
  }

  /** `handleSelectSkip`: the first skip with the id. */
  function HandleSelectSkip(skips: Option<seq<Skip>>, id: real): (r: Option<Skip>)
    ensures r.Some? ==> skips.Some? && r.value in skips.value && r.value.id == id
  {
    if skips.Some? then FindById(skips.value, id) else None
  }

  /** Loading wins over an error, and an error over the list. */
  lemma ViewPrecedence(isLoading: bool, error: Option<string>, skips: Option<seq<Skip>>)
    ensures View(isLoading, error, skips).Loading? <==> isLoading
    ensures View(isLoading, error, skips).Failed? <==> !isLoading && error.Some?
    ensures View(isLoading, error, skips).List? <==> !isLoading && error.None?
    ensures View(isLoading, error, skips).Failed? ==> View(isLoading, error, skips).message == error.value
  {
  }

  /** At most three tags, the leading ones in order; the section is hidden
      exactly when the list is absent or empty. */
  lemma VisibleTagsPrefix(suitableFor: Option<seq<string>>)
    ensures VisibleTags(suitableFor).None? <==> suitableFor.None? || |suitableFor.value| == 0
    ensures VisibleTags(suitableFor).Some? ==>
      var shown := VisibleTags(suitableFor).value;
      |shown| == (if |suitableFor.value| < 3 then |suitableFor.value| else 3) &&
      shown == suitableFor.value[..|shown|]
  {
  }

  /** The feature lines, price text and badges depend on nothing but the
      listed fields: two skips that agree on them get the same lines,
      whatever their hire periods or own feature lists. */
  lemma OptionCardIgnoresFeatures(a: Skip, b: Skip)
    ensures OptionCardOf(a).features == OptionCardOf(b).features == FixedFeatures
    ensures a.(features := b.features) == b ==> OptionCardOf(a) == OptionCardOf(b)
  {
  }

  /** The option card's savings block follows the same rule as the card's. */
  lemma OptionCardDerivations(skip: Skip)
    ensures OptionCardOf(skip).savings.Some? <==> ShowsSavings(skip.price, skip.originalPrice)
    ensures OptionCardOf(skip).savings.Some? ==> skip.originalPrice.value - skip.price > 0.0
    ensures OptionCardOf(skip).imageSrc == (if skip.imageUrl.Some? && skip.imageUrl.value != "" then skip.imageUrl.value else DefaultImage)
    ensures OptionCardOf(skip).popularBadge <==> skip.isPopular == Some(true)
  {
  }

  /** Selecting a card finds the first skip with that card's id: for a list
      with distinct ids, the card's own skip. */
  lemma {:induction false} SelectFindsCardSkip(skips: seq<Skip>, i: nat)
    requires i < |skips|
    requires forall j, k :: 0 <= j < k < |skips| ==> skips[j].id != skips[k].id
    ensures HandleSelectSkip(Some(skips), skips[i].id) == Some(skips[i])
  {
    assert IsFirstWithId(skips, skips[i].id, i);
    FindByIdFirst(skips, skips[i].id);
  }
}

=== FILE: skip_viewer.dfy ===
/** The 360-degree image viewer (client/src/components/skip-360-viewer.tsx):
    the pointer's position in the box picks the zoom origin and, from its
    horizontal position, which of the images is shown. Positions are exact
    reals. */
module Skip360Viewer {
  import opened Wrappers

  /** The box as `getBoundingClientRect` reports it. */
  datatype Box = Box(left: real, top: real, width: real, height: real)

  datatype ViewerState = ViewerState(index: int, zoomed: bool, zoomX: real, zoomY: real)

  /** Image 0, not zoomed, zoom origin at the centre. */
  const Initial: ViewerState := ViewerState(0, false, 50.0, 50.0)

  function Min(a: real, b: real): real {
    if a <= b then a else b
  }

  function Max(a: real, b: real): real {
    if a >= b then a else b
  }

  function MinInt(a: int, b: int): int {
    if a <= b then a else b
  }

  function MaxInt(a: int, b: int): int {
    if a >= b then a else b
  }

  /** `Math.max(0, Math.min(100, v))`. */
  function ClampPercent(v: real): (r: real)
    ensures 0.0 <= r <= 100.0
    ensures 0.0 <= v <= 100.0 ==> r == v
  {
    Max(0.0, Min(100.0, v))
  }

  /** The pointer's horizontal position as a fraction of the box width. */
  function NormalizedX(box: Box, clientX: real): real
    requires box.width > 0.0
  {
    (clientX - box.left) / box.width
  }

  function NormalizedY(box: Box, clientY: real): real
    requires box.height > 0.0
  {
    (clientY - box.top) / box.height
  }

  /** `Math.max(0, Math.min(count - 1, Math.floor(nx * count)))`. */
  function ImageIndex(nx: real, count: nat): int {
    MaxInt(0, MinInt(count - 1, (nx * count as real).Floor))
  }

  /** The mouse-move handler: a new zoom origin and image index; whether the
      image is zoomed is left as it was. */
  function MouseMove(st: ViewerState, box: Box, clientX: real, clientY: real, count: nat): (next: ViewerState)
    requires box.width > 0.0 && box.height > 0.0
    ensures 0.0 <= next.zoomX <= 100.0 && 0.0 <= next.zoomY <= 100.0
    ensures next.zoomed == st.zoomed
  {
    ViewerState(
      index := ImageIndex(NormalizedX(box, clientX), count),
      zoomed := st.zoomed,
      zoomX := ClampPercent(NormalizedX(box, clientX) * 100.0),
      zoomY := ClampPercent(NormalizedY(box, clientY) * 100.0))
  }

  function MouseEnter(st: ViewerState): ViewerState {
    st.(zoomed := true)
  }

  function MouseLeave(st: ViewerState): ViewerState {
    st.(zoomed := false)
  }

  /** A dot exists for every image; clicking it selects that image. */
  function ClickDot(st: ViewerState, dot: nat, count: nat): (next: ViewerState)
    requires dot < count
    ensures 0 <= next.index < count
  {
    st.(index := dot)
  }

  /** The dot shown as current. */
  predicate IsCurrentDot(st: ViewerState, dot: nat) {
    dot == st.index
  }

  /** `images[currentImageIndex]`: `undefined` outside the list. */
  function ShownImage(images: seq<string>, st: ViewerState): Option<string> {
    if 0 <= st.index < |images| then Some(images[st.index]) else None
  }

  /** The transform's scale factor. */
  function Scale(st: ViewerState): real {
    if st.zoomed then 1.5 else 1.0
  }

  // ---------------------------------------------------------------------
  // Arithmetic steps

  lemma ProductBelow(nx: real, n: real)
    requires 0.0 <= nx < 1.0 && n > 0.0
    ensures 0.0 <= nx * n < n
  {
    assert n - nx * n == (1.0 - nx) * n;
  }

  lemma ProductAtLeast(nx: real, n: real)
    requires nx >= 1.0 && n >= 0.0
    ensures nx * n >= n
  {
    assert nx * n - n == (nx - 1.0) * n;
  }

  lemma ProductNegative(nx: real, n: real)
    requires nx < 0.0 && n >= 0.0
    ensures nx * n <= 0.0
  {
    assert nx * n == -((-nx) * n);
  }

  lemma ProductMonotone(a: real, b: real, n: real)
    requires a <= b && n >= 0.0
    ensures a * n <= b * n
  {
    assert b * n - a * n == (b - a) * n;
  }

  lemma QuotientMonotone(a: real, b: real, w: real)
    requires a <= b && w > 0.0
    ensures a / w <= b / w
  {
    assert b / w - a / w == (b - a) / w;
  }

  lemma QuotientInUnit(a: real, w: real)
    requires w > 0.0 && 0.0 <= a <= w
    ensures 0.0 <= a / w <= 1.0
  {
    assert a / w * w == a;
  }

  lemma FloorMonotone(a: real, b: real)
    requires a <= b
    ensures a.Floor <= b.Floor
  {
  }

  // ---------------------------------------------------------------------
  // Properties

  /** With images to show, the index is always one of them. */
  lemma IndexInRange(nx: real, count: nat)
    requires count > 0
    ensures 0 <= ImageIndex(nx, count) < count
  {
  }

  /** Inside the box the clamp has no effect: the index is the pointer's
      share of the width times the number of images, rounded down. */
  lemma {:induction false} IndexInsideBox(nx: real, count: nat)
    requires 0.0 <= nx < 1.0 && count > 0
    ensures ImageIndex(nx, count) == (nx * count as real).Floor
    ensures 0 <= (nx * count as real).Floor < count
  {
    ProductBelow(nx, count as real);
    var p := nx * count as real;
    assert p.Floor as real <= p < count as real;
    assert 0 <= p.Floor <= count - 1;
  }

  /** At or beyond the right edge the last image is shown; left of the box
      the first. */
  lemma {:induction false} IndexAtEdges(nx: real, count: nat)
    requires count > 0
    ensures nx >= 1.0 ==> ImageIndex(nx, count) == count - 1
    ensures nx < 0.0 ==> ImageIndex(nx, count) == 0
  {
    if nx >= 1.0 {
      ProductAtLeast(nx, count as real);
    }
    if nx < 0.0 {
      ProductNegative(nx, count as real);
    }
  }

  /** Moving the pointer right never moves to an earlier image. */
  lemma {:induction false} IndexMonotone(box: Box, x1: real, x2: real, count: nat)
    requires box.width > 0.0
    requires x1 <= x2
    ensures ImageIndex(NormalizedX(box, x1), count) <= ImageIndex(NormalizedX(box, x2), count)
  {
    QuotientMonotone(x1 - box.left, x2 - box.left, box.width);
    ProductMonotone(NormalizedX(box, x1), NormalizedX(box, x2), count as real);
    FloorMonotone(NormalizedX(box, x1) * count as real, NormalizedX(box, x2) * count as real);
  }

  /** With no images the index is still 0, which is out of range: the clamp
      does not protect the lookup, and no image is shown. */
  lemma EmptyImagesIndex(st: ViewerState, box: Box, clientX: real, clientY: real)
    requires box.width > 0.0 && box.height > 0.0
    ensures MouseMove(st, box, clientX, clientY, 0).index == 0
    ensures ShownImage([], MouseMove(st, box, clientX, clientY, 0)).None?
  {
  }

  /** After a move over a non-empty list an image is always shown; inside
      the box the zoom origin is the pointer's position in percent. */
  lemma {:induction false} MouseMoveShowsImage(st: ViewerState, box: Box, clientX: real, clientY: real, images: seq<string>)
    requires box.width > 0.0 && box.height > 0.0 && |images| > 0
    ensures ShownImage(images, MouseMove(st, box, clientX, clientY, |images|)).Some?
    ensures box.left <= clientX <= box.left + box.width ==>
      MouseMove(st, box, clientX, clientY, |images|).zoomX == NormalizedX(box, clientX) * 100.0
    ensures box.top <= clientY <= box.top + box.height ==>
      MouseMove(st, box, clientX, clientY, |images|).zoomY == NormalizedY(box, clientY) * 100.0
  {
    IndexInRange(NormalizedX(box, clientX), |images|);
    if box.left <= clientX <= box.left + box.width {
      QuotientInUnit(clientX - box.left, box.width);
    }
    if box.top <= clientY <= box.top + box.height {
      QuotientInUnit(clientY - box.top, box.height);
    }
  }

  /** The initial state shows the first image unzoomed from the centre;
      entering and leaving the box only toggle the zoom. */
  lemma InitialAndHover(st: ViewerState, images: seq<string>)
    ensures Initial.index == 0 && !Initial.zoomed && Initial.zoomX == 50.0 && Initial.zoomY == 50.0
    ensures |images| > 0 ==> ShownImage(images, Initial) == Some(images[0])
    ensures Scale(MouseEnter(st)) == 1.5 && Scale(MouseLeave(st)) == 1.0
    ensures MouseLeave(MouseEnter(st)) == st.(zoomed := false)
    ensures MouseEnter(st).index == st.index && MouseLeave(st).index == st.index
  {
  }

  /** Clicking a dot makes it the one current dot and shows its image. */
  lemma ClickDotSelects(st: ViewerState, dot: nat, images: seq<string>)
    requires dot < |images|
    ensures IsCurrentDot(ClickDot(st, dot, |images|), dot)
    ensures forall other: nat :: other != dot ==> !IsCurrentDot(ClickDot(st, dot, |images|), other)
    ensures ShownImage(images, ClickDot(st, dot, |images|)) == Some(images[dot])
  {
  }
}

=== FILE: wrappers.dfy ===
/** Optional values and results with an error, used for the places where the
    modelled code either produces `undefined` or throws. */
module Wrappers {

  datatype Option<+T> = None | Some(value: T) {

    predicate IsFailure() {
      None?
    }

    function PropagateFailure<U>(): Option<U>
      requires None?
    {
      None
    }

    function Extract(): T
      requires Some?
    {
      value
    }
  }

  datatype Result<+R, +E> = Success(value: R) | Failure(error: E)
}
